=== FILE: README.md ===
# Hierarchical imitation trainer: index, masking and dispatch logic

This project models the parts of the trainer of a language-conditioned
hierarchical RL policy (`lisa/hrl/trainer.py`) that are not tensor maths:

- **Chunk padding** (`Padding`): option-based methods pad the sequence length
  L to `(L // K + 1) * K`.
- **Mask-driven flatten-and-filter** (`Masking`): a B x T batch is
  flattened, and only the rows whose mask entry is positive are kept. State
  predictions and state targets use the shifted masks `mask[:, :-1]` and
  `[0] ++ mask[:, :-1]`.
- **Next-Q shift** (`NextQ`): each row of `q_preds` is shifted one step left,
  and a zero vector is appended.
- **Losses** (`Losses`): Python's argument binding for `imitation_loss`, its
  three-way choice between critic, cross-entropy and MSE, the reconstruction
  losses, and the zero defaults. Each loss is a tag saying which kernel runs
  on which arguments. A record of opaque functions (`Numerics`) turns a tag
  into a `real`.
- **Training step and validation step** (`Training`): one batch after the
  forward pass. It masks every field, binds the call as each call site
  writes it, and composes the six-term training loss or the four-term
  validation loss.
- **Evaluation dispatch** (`Evaluation`): the MetaWorld / BabyAI / Lorl /
  Hopper / validation-loss if-chain. It lists every rollout each branch
  performs: episode index, task or phrasing, seed, and whether the episode
  is rendered.
- **Checkpoints** (`Checkpoint`): the record `save` writes, and the guard in
  `load` that restores the optimizer and the scheduler only when present.

The operations return a `Failure` result for the errors torch or Python
raise on the paths they model: a boolean index by a mask of another size, a
`reshape(-1, w)` whose width does not divide the element count, a `torch.cat`
whose sizes differ, a call binding Python rejects, unpacking a reconstruction output that is
`None`, `.mean()` on a missing language entropy, a Lorl rephrasal type with
no statistics key (`KeyError`), a zero chunk size in `L // K`, and a zero
modulus. Where a member does take a precondition, the
precondition is listed under "Left out" and says which input it excludes.

Two behaviours of the code are easy to misread, and the model follows the
code:

- For two trajectories with masks `[1,1,1,1]` and `[1,1,0,0]`, lines 137-157
  keep 4 + 2 = 6 action rows. `pred_attention_mask` (line 148) drops only the
  last column, and `target_attention_mask` (lines 145-146) only zeroes
  column 0, so 3 + 2 = 5 state predictions and 5 state targets are kept
  (`Masking.TwoTrajectoryExample`).
- The validation pass does not bind its arguments the way the training loop
  does. Lines 529 and 533 pass `discrete` as the fifth positional argument,
  which `imitation_loss` names `q_preds`; `discrete` itself keeps its default
  `True`. So the critic runs whenever the model has one. Otherwise the loss
  is cross-entropy, even for a continuous action space
  (`Training.ValidationCriticQuirk`).

## Model

| member | source | states |
|---|---|---|
| Padding.PaddedLength | lisa/hrl/trainer.py:80-83 | the padded length is a multiple of K, strictly greater than L, and at most L + K |
| Padding.PaddedLengthIsLeastMultipleAbove | lisa/hrl/trainer.py:80-83 | no multiple of K above L is smaller than the padded length |
| Padding.PaddedLengthAddsFullChunkWhenDivisible | lisa/hrl/trainer.py:82-83 | when K divides L, a whole extra chunk is added (L + K, not L) |
| Padding.SequenceLength | lisa/hrl/trainer.py:78-90 | only the `option` and `traj_option` methods pad, and vanilla keeps L; padding fails exactly when K is 0 (the division `L // K`); otherwise the length is a multiple of K in (L, L + K] |
| Masking.Positions | lisa/hrl/trainer.py:137 | every selected flat position is in range and holds a positive mask entry; the positions strictly increase, one per positive entry |
| Masking.PositionsComplete | lisa/hrl/trainer.py:137 | every index whose mask entry is positive is among the selected positions |
| Masking.Select | lisa/hrl/trainer.py:137-141 | the filter keeps one row per positive mask entry; row k is the input row at the k-th selected position, so order is kept |
| Masking.FilterRows | lisa/hrl/trainer.py:137-157 | batch filtering fails exactly when the flattened sizes differ; otherwise it keeps Count(mask) rows in order |
| Masking.Reshape | lisa/hrl/trainer.py:137-141 | `reshape(-1, w)` succeeds iff w > 0 divides the element count; the rows then all have width w, there are count / w of them, and they flatten back to the input |
| Masking.ReshapeOfFlatten | lisa/hrl/trainer.py:137-141 | reshaping the flattening of equal-width rows to that width gives the rows back |
| Masking.PaddingKeepsSelection | lisa/hrl/trainer.py:86-90 | if padded mask entries are 0 (taken as given from the padding utility), the padded batch selects the same rows as the unpadded one |
| Masking.PredMaskRow | lisa/hrl/trainer.py:147-148 | a `pred_attention_mask` row has T-1 columns that agree with the mask |
| Masking.TargetMaskRow | lisa/hrl/trainer.py:144-146 | a `target_attention_mask` row has T columns; column 0 is 0 (never selected); column t+1 is mask column t |
| Masking.ShiftedCountsAgree | lisa/hrl/trainer.py:143-155 | over any batch, the target mask and the prediction mask select equally many states |
| Masking.AllOnesRowShifted | lisa/hrl/trainer.py:143-155 | a fully valid trajectory of length T >= 1 yields T-1 state predictions and T-1 state targets |
| Masking.TwoTrajectoryExample | lisa/hrl/trainer.py:137-155 | masks `[1,1,1,1]`, `[1,1,0,0]` keep 6 action rows, 5 state predictions and 5 state targets |
| NextQ.ShiftRow | lisa/hrl/trainer.py:160-163 | next-Q entry t is the Q prediction for step t+1; the last entry is the zero vector of width act_dim |
| NextQ.NextQShape | lisa/hrl/trainer.py:160-163 | for a B x T x A `q_preds` with T >= 1, `next_q` is B x T x A, shifted left, with zeros in the final step |
| Losses.BindImitation | lisa/hrl/trainer.py:602-604 | positional argument k binds parameter k, and unfilled parameters take their defaults (`None`; `discrete=True`); fewer than 2 positionals is a missing-argument error; more than 8 collides with the keyword `loss_fn` |
| Losses.ImitationLoss | lisa/hrl/trainer.py:602-616 | the critic runs iff `q_preds` and `loss_fn` are both present; otherwise cross-entropy iff `discrete` is true and MSE iff false; there is a state loss iff both state arguments are present |
| Losses.ReconstructionLoss | lisa/hrl/trainer.py:588-599 | reconstruction loss is the MSE of the pair iff both sides are present, else zero |
| Losses.ScalarOrZero | lisa/hrl/trainer.py:123-125 | an absent commitment (or option) loss counts as exactly 0; a present one is averaged over devices |
| Losses.TrainingTotal | lisa/hrl/trainer.py:190 | with the option, both reconstruction and the commitment terms at zero, the training loss is the action loss plus the state loss |
| Losses.ValidationTotal | lisa/hrl/trainer.py:537 | the validation loss is the training loss of the same terms with the option and commitment terms set to zero |
| Losses.ValidationOmitsOptionAndCommitment | lisa/hrl/trainer.py:537 | the validation total is the training total without the option and commitment terms |
| Training.FilterTargets | lisa/hrl/trainer.py:103-141 | the `discrete` flag, not the targets' shape, picks the reshape: for a discrete space the integer targets flattened to one index per element, otherwise the float targets cut into rows of width act_dim; masking succeeds iff that many entries match the mask, and keeps exactly the entries at positive mask positions, in order |
| Training.FilterTargetsOfMatchingKind | lisa/hrl/trainer.py:137-141 | targets of the kind the flag expects (indices when discrete, act_dim-wide vectors otherwise) are masked exactly as the batch filter masks a B x T field |
| Training.DiscreteRunRejectsVectorTargets | lisa/hrl/trainer.py:103-139 | a discrete run given one 2-wide float target under a one-step mask fails, since `reshape(-1)` keeps 2 entries for 1 mask entry |
| Training.StateArgs | lisa/hrl/trainer.py:135-155 | with `state_il`, the state arguments are the predictions under the prediction mask and the targets, cut into rows of width `state_dim`, under the target mask; they fail iff the predictions' size differs from their mask's, or the targets do not reshape to `state_dim` or then differ in row count from their mask; without `state_il`, `None, None` |
| Training.FilterWide | lisa/hrl/trainer.py:152-155 | `x.reshape(-1, w)[mask.reshape(-1) > 0]`: succeeds iff the scalars of x cut into width-w rows and those rows match the mask in number; it then keeps the rows at positive mask positions, in order |
| Training.FilterWideOfWidth | lisa/hrl/trainer.py:152-155 | on a field whose vectors are all w wide (w > 0), the reshape is the identity and the filter is the plain batch filter |
| Training.WideStateTargetsRejected | lisa/hrl/trainer.py:136-155 | with mask `[[1,1]]`, 1-wide state predictions and 2-wide state targets, the state arguments fail, though masking the targets' vectors without the reshape would succeed |
| Training.QArgs | lisa/hrl/trainer.py:158-170 | without `predict_q`: the masked action predictions and `None, None`; with it, fails iff `q_preds` differs from the action predictions in batch size, a Q vector is not `act_dim` wide, or its size differs from the mask's; otherwise the policy's choice on the masked Q values, the masked Q values, and the shifted next-Q tensor |
| Training.TrainParams | lisa/hrl/trainer.py:133-179 | building the training call fails only on a shape or next-Q error, never on binding; `discrete`, `loss_fn` and `step` reach their parameters unchanged |
| Training.BindEight | lisa/hrl/trainer.py:172-179 | the eight positional arguments of the training call fill the eight positional parameters in order |
| Training.TrainParamsValues | lisa/hrl/trainer.py:133-179 | each training argument is its field flattened and filtered by the matching mask, in order: dones and action targets by the mask, state predictions by the prediction mask, state targets (reshaped to `state_dim`) by the target mask, actions by the mask (or, with Q, the policy on the masked Q values, with the shifted Q tensor as next-Q) |
| Training.TrainParamsShapes | lisa/hrl/trainer.py:133-170 | action targets, dones and (without Q) action predictions all have Count(mask) rows; state predictions and targets have equal counts; `q_preds`/`next_q` are passed iff the model predicts Q, and `next_q` has one row per batch entry (values: `Training.TrainParamsValues`) |
| Training.TrainLossSelection | lisa/hrl/trainer.py:172-179 | in training, critic iff predict_q and a critic exists; otherwise cross-entropy iff discrete, MSE iff continuous; state loss iff `state_il` |
| Training.TrainParamsSucceed | lisa/hrl/trainer.py:133-170 | a batch whose fields are all B x T (state predictions B x (T-1)), whose `act_dim` and `state_dim` are the widths of the action and state predictions and targets, and whose targets are of the kind the flag expects never hits a shape error |
| Training.TrainTerms | lisa/hrl/trainer.py:113-190 | given reconstruction outputs that unpack as pairs: the action term is the selected action loss; the state term is the MSE of the state arguments, or 0 without them; the option and commitment terms are the mean of the present output, or 0; each reconstruction term is the MSE of its pair when both sides are present, or 0 |
| Training.ZeroDefaults | lisa/hrl/trainer.py:116-190 | with no optional heads, no entropy output and both reconstruction outputs pairs with an absent prediction, the composite loss is action loss + state loss, and exactly the action loss when `state_il` is off |
| Training.TrainStepLoss | lisa/hrl/trainer.py:113-190 | a training batch yields a loss iff both reconstruction outputs unpack, its entropies can be averaged and its arguments can be built; a `None` reconstruction output fails first, then a missing language entropy beside a policy entropy, both before any masking; otherwise it fails with the argument-building error; the loss is the sum of the action loss, the state loss, the option mean (0 if absent), the two reconstruction MSEs (0 if a side is absent) and the commitment mean (0 if absent) |
| Training.Entropies | lisa/hrl/trainer.py:116-131 | both entropies are 0 when the entropy output or its first component is absent; the means of both when both are present; a present policy entropy beside an absent language entropy raises |
| Training.ValidationParams | lisa/hrl/trainer.py:507-533 | from line 507 on, building the validation call fails only on a shape error; the call it builds has `discrete` True and the run's `loss_fn` and `step` |
| Training.BindFive | lisa/hrl/trainer.py:527-533 | five positional arguments fill the first five parameters, and next-Q, dones and `discrete` keep their defaults `None`, `None`, `True` |
| Training.ValidationParamsValues | lisa/hrl/trainer.py:497-533 | validation masks action predictions, the integer-cast targets flattened to one index each, and (with `state_il`) the shifted-mask state tensors, the targets reshaped to `state_dim`, as training does; the `discrete` flag becomes `q_preds` |
| Training.ValidationStepLoss | lisa/hrl/trainer.py:504-537 | from line 504 on, a validation batch yields a loss iff both reconstruction outputs unpack and its arguments can be built; a `None` reconstruction output fails first, otherwise the argument-building error is returned; the loss is the action loss, the state loss and the two reconstruction MSEs (0 if a side is absent), with no option or commitment term |
| Training.ValidationIgnoresOptionAndCommitment | lisa/hrl/trainer.py:504-537 | changing the option loss or the commitment loss leaves the validation result, loss or error, unchanged |
| Training.ValidationCriticQuirk | lisa/hrl/trainer.py:527-533 | at the validation call, `q_preds` receives the `discrete` flag and is never None; the critic runs iff a critic exists; otherwise cross-entropy even for continuous actions |
| Training.ValidationUnpaddedDonesFail | lisa/hrl/trainer.py:473-526 | as written, the fallback never pads `dones`; for option methods with B >= 1, the `dones` filter fails with a B*L vs B*padded shape mismatch, even when every other field is padded and the state targets are `state_dim` wide |
| Training.IterationLosses | lisa/hrl/trainer.py:74-213 | one loss per batch, in loader order; the iteration fails iff some batch fails |
| Training.EvaluatesExactlyOnMultiples | lisa/hrl/trainer.py:218 | with a positive `eval_every`, evaluation follows exactly the iterations that are multiples of it |
| Evaluation.DispatchIsFirstEligible | lisa/hrl/trainer.py:269-464 | exactly one branch runs: the first eligible one in the order MetaWorld, BabyAI, Lorl, Hopper, then validation |
| Evaluation.Dispatch | lisa/hrl/trainer.py:269-464 | every rollout branch needs a configured environment; without one, the validation pass runs |
| Evaluation.Seed | lisa/hrl/trainer.py:287 | the MetaWorld seed always lies in [0, 51511) |
| Evaluation.Rollouts | lisa/hrl/trainer.py:286-288 | N x variants rollouts, episode-major; rollout k is episode k div V + 1 with variant k mod V; episodes run 1..N in order; seeds and render flags are per episode |
| Evaluation.Phrasings | lisa/hrl/trainer.py:384-387 | one Lorl episode runs one rollout per phrasing, over all instructions and rephrasal types |
| Evaluation.KindPhrasingsAt | lisa/hrl/trainer.py:386-387 | within one instruction, phrasing t of rephrasal type j comes right after all phrasings of the earlier types |
| Evaluation.KindPhrasingsFrom | lisa/hrl/trainer.py:386-387 | every rollout of one instruction is some phrasing of some type, at the position the loop order gives it |
| Evaluation.PhrasingsAt | lisa/hrl/trainer.py:385-387 | phrasing t of type j of instruction i comes after every phrasing of the earlier instructions and of the earlier types of instruction i |
| Evaluation.PhrasingsFrom | lisa/hrl/trainer.py:385-387 | every Lorl variant is some phrasing of the instruction table, at the position the loop order gives it |
| Evaluation.Plan | lisa/hrl/trainer.py:269-464 | evaluation takes the validation pass iff the dispatcher selects it; a `KeyError` for a rephrasal type happens only on a Lorl run with an episode due and a phrasing of an unknown type, and names the first such type in loop order |
| Evaluation.FirstUnknownKind | lisa/hrl/trainer.py:381-408 | when some phrasing's type is not one of the five statistics keys, it gives the position of such a phrasing |
| Evaluation.FirstUnknownKindIsFirst | lisa/hrl/trainer.py:381-408 | every phrasing before that position has a known type, so the lookup at line 408 fails there first |
| Evaluation.ParaphraseTypeRejected | lisa/hrl/trainer.py:381-408 | a Lorl table with one instruction whose only type is `paraphrase` raises `KeyError('paraphrase')` after its first rollout |
| Evaluation.EpisodeCaps | lisa/hrl/trainer.py:269-431 | the `max_ep_len` argument is always overridden: 50 for MetaWorld, the dataset's maximum length for Lorl, `eval_episode_factor` times it for BabyAI and Hopper |
| Evaluation.PlanRollouts | lisa/hrl/trainer.py:284-455 | with a non-zero render frequency, evaluation fails iff it is a Lorl run with an episode due and a phrasing of a type outside the five statistics keys; when it succeeds: N x tasks rollouts for MetaWorld, N x total phrasings for Lorl, N for BabyAI and Hopper; only MetaWorld is seeded; a rollout renders iff `render` and its episode index is a multiple of `render_freq` |
| Evaluation.MetaWorldOrder | lisa/hrl/trainer.py:286-290 | MetaWorld rollout k runs task k mod \|tasks\| in episode k div \|tasks\| + 1, with that episode's seed |
| Evaluation.PlanFailures | lisa/hrl/trainer.py:297-408 | among the modelled failures, evaluation raises iff a rollout is due and either a rollout branch renders with `render_freq == 0` (lines 297, 341, 395, 438) or the run is Lorl with a phrasing whose type has no statistics key (lines 381-382 and 408); it raises `ZeroDivisionError` iff the first holds |
| Evaluation.InitialWords | lisa/hrl/trainer.py:263-266 | the words dictionary is reset to one empty list per option index 0..num_options-1, and left empty for vanilla |
| Checkpoint.Save | lisa/hrl/trainer.py:565-576 | saving succeeds iff both optimizer and scheduler exist; the record carries the iteration number and the dataset's max length |
| Checkpoint.Load | lisa/hrl/trainer.py:578-585 | the model is always restored; the optimizer and scheduler only when the trainer has them; the returned bookkeeping is the record's |
| Checkpoint.SaveLoadRoundTrip | lisa/hrl/trainer.py:565-585 | save then load into another trainer returns the saved iteration number, max length and config, and restores each state it has a target for |

## Left out

- Tensor numerics are opaque functions in `Numerics`: `F.cross_entropy`, `F.mse_loss`, `mean`, and the critic's value. The same goes for `argmax`, `one_hot`, the action-error metric and the `np.mean`/`np.std` aggregation of metrics, which are floating-point library calls.
- The gradient step (`zero_grad`, `backward`, gradient-norm clipping at 0.25, `optimizer.step`, `scheduler.step`) is left out. It is an optimizer side effect inside torch.
- The forward pass, the tokenizer and `iq_choose_action` are foreign network calls. `iq_choose_action` (with the one-hot that follows it) is the opaque function in `Training.Policy`.
- The padding utility `pad` is not part of this model. Only the target length is modelled. "Padded mask entries are 0" is a precondition of `Masking.PaddingKeepsSelection`, not a proved fact.
- Evaluation.PlanFailures: with `render` on, the training loop's call at line 222 leaves `render_path` at its default `''` (line 253), and `os.makedirs('')` at lines 277-278, 343-344, 376-377 and 440-441 raises too. The file system is not modelled, so this failure is not among the plan's.
- Rollouts, simulators and output are left out, being I/O and visualisation: `eval_episode`, the environment wrappers, gif and text files, `os.makedirs`, `print`, `plot_hist`, `viz_matrix`, `wandb`, `tqdm`, timing, and the metric dictionaries built from rollout results. Of those dictionaries only the `rephrasal_wise_stats` key lookup (lines 381-382 and 408) is modelled, because it can raise.
- `torch.save`/`torch.load` and the `hasattr(model, 'module')` unwrap are file I/O and wrapper plumbing. Only the record's contents and the restore guard are modelled.
- Losses.ReconstructionLoss: presence is an `Option`. Python's truth test on a multi-element tensor, which raises, is not modelled.
- Losses.ImitationLoss: a tensor landing in the `discrete` slot gives `AmbiguousTruth` instead of the tensor's truth value. Neither call site does this.
- Training.ValidationCriticQuirk: the validation model starts after the forward pass. It assumes what lines 490 and 503 do not provide: line 503 unpacks `outputs['dt']` as a pair, and line 490 reads `act_dim` before line 507 first assigns it.
- Training.ValidationParams: the model starts at line 507. Like `Training.ValidationCriticQuirk`, it assumes what lines 490 and 503 do not provide: line 490 reads `act_dim` before line 507 assigns it, and line 503 unpacks `outputs['dt']` as a pair. Its failure set is only the shape errors from line 507 on.
- Training.ValidationStepLoss: the model starts at line 504, with the same assumption about lines 490 and 503 as `Training.ValidationParams`. Its success iff covers the reconstruction unpacking (lines 504-505) and argument building, not those two earlier lines.
- Padding.PaddedLength: requires K > 0; `Padding.SequenceLength` models K = 0 as the `ZeroChunkSize` failure. A negative K is not modelled, since K is a `nat`.
- Training.QArgs: the `torch.cat` width check of `next_q` is modelled only on the Q vectors present. With T == 0 a wrong Q width goes undetected, where torch would still raise.
- Training.StateArgs: `act_dim` and `state_dim` are fields of the batch. The source reads them off the predictions (lines 133, 136 and 507-508); the model does not derive them, and `Training.WellShaped` states that they equal those widths.
- Training.TrainParams: the mask's `reshape(B, -1)` (lines 143 and 512) is taken to leave the mask's rows as they are. A mask whose batch size differs from the predictions', which torch would re-row or reject, is not modelled.
- Training.Truncate: `.long()` on a float that is infinite or NaN is not modelled; the model's reals are finite.
- Evaluation.DispatchIsFirstEligible: environment names are matched as exact substrings. Families are the closed datatype `Family`.
- Trainer construction, the logging dictionary of `train_iteration`, and its `print_logs` output are bookkeeping with no logic beyond what is modelled.


=== FILE: arith.dfy ===
/** Facts about integer multiplication and Euclidean division that the
    padding length, the rollout order and the evaluation schedule rely on. */
module Arith {

  /** A positive multiple of k is at least k. */
  lemma MulAtLeast(d: int, k: int)
    requires d >= 1 && k > 0
    ensures d * k >= k
  {
    if d > 1 {
      MulAtLeast(d - 1, k);
      assert d * k == (d - 1) * k + k;
    }
  }

  /** Euclidean division has exactly one quotient/remainder pair. */
  lemma DivModUnique(a: int, k: int, q: int, r: int)
    requires k > 0 && 0 <= r < k && a == q * k + r
    ensures a / k == q && a % k == r
  {
    var q0, r0 := a / k, a % k;
    assert a == q0 * k + r0;
    if q0 > q {
      assert (q0 - q) * k == q0 * k - q * k;
      MulAtLeast(q0 - q, k);
    } else if q > q0 {
      assert (q - q0) * k == q * k - q0 * k;
      MulAtLeast(q - q0, k);
    }
  }
}

=== FILE: checkpoint.dfy ===
/** Trainer.save and Trainer.load: the checkpoint record and the guard that
    restores optimizer and scheduler state only when the trainer has them.
    Serialisation and the file system are external. */
module Checkpoint {
  import opened Options

  /** An opaque `state_dict()`. */
  datatype StateDict = StateDict(id: nat)

  /** An opaque configuration snapshot. */
  datatype Config = Config(id: nat)

  /** The parts of a trainer a checkpoint reads or restores; an absent
      optimizer or scheduler is `None` (a falsy reference). */
  datatype TrainerState = TrainerState(
    model: StateDict,
    optimizer: Option<StateDict>,
    scheduler: Option<StateDict>,
    datasetMaxLength: int)

  /** The record written by `torch.save`. */
  datatype Record = Record(
    model: StateDict, optimizer: StateDict, scheduler: StateDict,
    iterNum: int, trainDatasetMaxLength: int, config: Config)

  /** `save` calls `state_dict()` on the optimizer and the scheduler
      unconditionally, which raises when either is `None`. */
  datatype SaveError = NoOptimizer | NoScheduler

  function Save(t: TrainerState, iterNum: int, config: Config): (r: Result<Record, SaveError>)
    ensures r.Success? <==> t.optimizer.Some? && t.scheduler.Some?
    ensures t.optimizer.None? ==> r == Failure(NoOptimizer)
    ensures t.optimizer.Some? && t.scheduler.None? ==> r == Failure(NoScheduler)
    ensures r.Success? ==> r.value.iterNum == iterNum && r.value.trainDatasetMaxLength == t.datasetMaxLength
  {
    if t.optimizer.None? then Failure(NoOptimizer)
    else if t.scheduler.None? then Failure(NoScheduler)
    else Success(Record(t.model, t.optimizer.value, t.scheduler.value, iterNum, t.datasetMaxLength, config))
  }

  /** What `load` returns for resuming the bookkeeping. */
  datatype Resume = Resume(iterNum: int, trainDatasetMaxLength: int, config: Config)

  /** `load`: the model is always restored; the optimizer and the scheduler
      only when the trainer has one. */
  function Load(t: TrainerState, rec: Record): (r: (TrainerState, Resume))
    ensures r.0.model == rec.model
    ensures r.0.optimizer.Some? <==> t.optimizer.Some?
    ensures r.0.scheduler.Some? <==> t.scheduler.Some?
    ensures t.optimizer.Some? ==> r.0.optimizer == Some(rec.optimizer)
    ensures t.scheduler.Some? ==> r.0.scheduler == Some(rec.scheduler)
    ensures r.0.datasetMaxLength == t.datasetMaxLength
    ensures r.1 == Resume(rec.iterNum, rec.trainDatasetMaxLength, rec.config)
  {
    var optimizer := if t.optimizer.Some? then Some(rec.optimizer) else None;
    var scheduler := if t.scheduler.Some? then Some(rec.scheduler) else None;
    (TrainerState(rec.model, optimizer, scheduler, t.datasetMaxLength), Resume(rec.iterNum, rec.trainDatasetMaxLength, rec.config))
  }

  /** Saving from one trainer and loading into a fresh one gives back the
      iteration number, the dataset's maximum length and the configuration,
      restores the model, and restores the optimizer and scheduler state
      exactly where the fresh trainer has those objects. */
  lemma SaveLoadRoundTrip(saved: TrainerState, target: TrainerState, iterNum: int, config: Config)
    requires saved.optimizer.Some? && saved.scheduler.Some?
    ensures Save(saved, iterNum, config).Success?
    ensures var loaded := Load(target, Save(saved, iterNum, config).value);
      && loaded.1 == Resume(iterNum, saved.datasetMaxLength, config)
      && loaded.0.model == saved.model
      && (target.optimizer.Some? ==> loaded.0.optimizer == saved.optimizer)
      && (target.scheduler.Some? ==> loaded.0.scheduler == saved.scheduler)
      && (target.optimizer.None? ==> loaded.0.optimizer.None?)
      && (target.scheduler.None? ==> loaded.0.scheduler.None?)
  {
  }
}

=== FILE: evaluation.dfy ===
/** Trainer.evaluate: which environment family is evaluated, and the exact
    list of rollouts each family performs (episode index, task or
    instruction, seed, whether the episode is rendered). The rollouts
    themselves, the simulators and the rendering are external. */
module Evaluation {
  import opened Options
  import Padding
  import opened Arith

  /** The evaluation branches, in the order the dispatcher tests them. */
  datatype Family = MetaWorld | BabyAI | Lorl | Hopper | ValidationLoss

  /** What the dispatcher inspects: whether an environment is configured
      (`self.env` is truthy), `args.env.name`, and `env.unwrapped.spec.id`. */
  datatype EnvSetup = EnvSetup(hasEnv: bool, argsEnvName: string, specId: string)

  /** Python's substring test `needle in hay`. */
  predicate Contains(needle: string, hay: string)
    decreases |hay|
  {
    needle <= hay || (|hay| > 0 && Contains(needle, hay[1..]))
  }

  /** The guarded if/elif chain of Trainer.evaluate. Every rollout branch
      needs a configured environment; without one the validation-loss pass
      runs. */
  function Dispatch(s: EnvSetup): (f: Family)
    ensures f != ValidationLoss ==> s.hasEnv
    ensures !s.hasEnv ==> f == ValidationLoss
  {
    if s.hasEnv && Contains("MetaWorld", s.argsEnvName) then MetaWorld
    else if s.hasEnv && Contains("BabyAI", s.specId) then BabyAI
    else if s.hasEnv && Contains("Lorl", s.specId) then Lorl
    else if s.hasEnv && Contains("Hopper", s.specId) then Hopper
    else ValidationLoss
  }

  /** Position of a family in the test order. */
  function Rank(f: Family): nat {
    match f
    case MetaWorld => 0
    case BabyAI => 1
    case Lorl => 2
    case Hopper => 3
    case ValidationLoss => 4
  }

  /** Whether a family's own guard holds; the fallback's always does. */
  predicate Eligible(s: EnvSetup, f: Family) {
    match f
    case MetaWorld => s.hasEnv && Contains("MetaWorld", s.argsEnvName)
    case BabyAI => s.hasEnv && Contains("BabyAI", s.specId)
    case Lorl => s.hasEnv && Contains("Lorl", s.specId)
    case Hopper => s.hasEnv && Contains("Hopper", s.specId)
    case ValidationLoss => true
  }

  /** Exactly one branch runs: the first eligible family in test order. */
  lemma DispatchIsFirstEligible(s: EnvSetup, f: Family)
    ensures Dispatch(s) == f <==> Eligible(s, f) && forall g :: Rank(g) < Rank(f) ==> !Eligible(s, g)
  {
    if Eligible(s, f) && forall g :: Rank(g) < Rank(f) ==> !Eligible(s, g) {
      assert Rank(MetaWorld) == 0 && Rank(BabyAI) == 1 && Rank(Lorl) == 2 && Rank(Hopper) == 3;
    }
  }

  /** What one rollout is run on. */
  datatype Variant =
    | Plain                                              // BabyAI, Hopper
    | Task(name: string)                                 // a MetaWorld task
    | Phrasing(original: string, kind: string, text: string)  // a Lorl rephrasal

  /** One call of the single-episode rollout routine. */
  datatype Rollout = Rollout(episode: int, variant: Variant, seed: Option<int>, render: bool)

  const SeedOffset: int := 123456789
  const SeedScale: int := 10000
  const SeedModulus: int := 51511

  /** The MetaWorld environment seed of episode i, `(i + 123456789) * 10000 % 51511`
      (Python's `%` with a positive modulus is never negative, as here). */
  function Seed(i: int): (r: int)
    ensures 0 <= r < SeedModulus
  {
    (i + SeedOffset) * SeedScale % SeedModulus
  }

  /** `render and i % render_freq == 0`; the modulus is evaluated only when
      rendering. Python's and Dafny's `%` disagree in sign for a negative
      modulus but agree on whether the remainder is zero. */
  function Renders(render: bool, renderFreq: int, i: int): bool
    requires render ==> renderFreq != 0
  {
    render && i % renderFreq == 0
  }

  function EpisodeRollouts(i: int, variants: seq<Variant>, seeded: bool, render: bool): (r: seq<Rollout>)
    ensures |r| == |variants|
    ensures forall j :: 0 <= j < |r| ==> r[j] == Rollout(i, variants[j], if seeded then Some(Seed(i)) else None, render)
  {
    seq(|variants|, j requires 0 <= j < |variants| =>
      Rollout(i, variants[j], if seeded then Some(Seed(i)) else None, render))
  }

  /** Episode indices lie in 1..n and never decrease along the list. */
  predicate EpisodesInOrder(r: seq<Rollout>, n: int) {
    && (forall k :: 0 <= k < |r| ==> 1 <= r[k].episode <= n)
    && (forall k, l :: 0 <= k <= l < |r| ==> r[k].episode <= r[l].episode)
  }

  /** Each rollout's seed and render flag are those of its episode. */
  predicate PerEpisodeFlags(r: seq<Rollout>, seeded: bool, render: bool, renderFreq: int)
    requires render ==> renderFreq != 0
  {
    forall k :: 0 <= k < |r| ==>
      && r[k].seed == (if seeded then Some(Seed(r[k].episode)) else None)
      && r[k].render == Renders(render, renderFreq, r[k].episode)
  }

  /** Episode-major order: position k holds variant k mod |variants| of
      episode k div |variants| + 1. */
  predicate EpisodeMajor(r: seq<Rollout>, variants: seq<Variant>) {
    |variants| > 0 ==> forall k :: 0 <= k < |r| ==>
      r[k].episode == k / |variants| + 1 && r[k].variant == variants[k % |variants|]
  }

  /** `for i in range(1, n + 1): for v in variants: rollout(i, v)` */
  function Rollouts(n: int, variants: seq<Variant>, seeded: bool, render: bool, renderFreq: int): (r: seq<Rollout>)
    requires render ==> renderFreq != 0
    ensures |r| == (if n < 1 then 0 else n) * |variants|
    ensures EpisodesInOrder(r, n)
    ensures PerEpisodeFlags(r, seeded, render, renderFreq)
    ensures EpisodeMajor(r, variants)
    decreases n
  {
    if n < 1 then []
    else
      var prefix := Rollouts(n - 1, variants, seeded, render, renderFreq);
      var last := EpisodeRollouts(n, variants, seeded, Renders(render, renderFreq, n));
      AppendEpisode(n, variants, seeded, render, renderFreq, prefix, last);
      IndexInEpisode(n, variants, prefix, last);
      prefix + last
  }

  /** Appending episode n to the rollouts of episodes 1..n-1 keeps the
      episodes in range and in order, with per-episode seeds and render flags. */
  lemma AppendEpisode(n: int, variants: seq<Variant>, seeded: bool, render: bool, renderFreq: int,
                      prefix: seq<Rollout>, last: seq<Rollout>)
    requires n >= 1 && (render ==> renderFreq != 0)
    requires |prefix| == (n - 1) * |variants|
    requires EpisodesInOrder(prefix, n - 1)
    requires PerEpisodeFlags(prefix, seeded, render, renderFreq)
    requires last == EpisodeRollouts(n, variants, seeded, Renders(render, renderFreq, n))
    ensures |prefix + last| == n * |variants|
    ensures EpisodesInOrder(prefix + last, n)
    ensures PerEpisodeFlags(prefix + last, seeded, render, renderFreq)
  {
    assert n * |variants| == (n - 1) * |variants| + |variants|;
    var r := prefix + last;
    forall k | 0 <= k < |r|
      ensures 1 <= r[k].episode <= n
      ensures r[k].seed == (if seeded then Some(Seed(r[k].episode)) else None)
      ensures r[k].render == Renders(render, renderFreq, r[k].episode)
    {
      if k >= |prefix| {
        assert r[k] == last[k - |prefix|];
      } else {
        assert r[k] == prefix[k];
      }
    }
    forall k, l | 0 <= k <= l < |r|
      ensures r[k].episode <= r[l].episode
    {
      if l >= |prefix| {
        assert r[l] == last[l - |prefix|];
        if k < |prefix| { assert r[k] == prefix[k]; } else { assert r[k] == last[k - |prefix|]; }
      } else {
        assert r[k] == prefix[k] && r[l] == prefix[l];
      }
    }
  }

  /** The flat position of the j-th variant of episode n is (n-1)*|variants| + j. */
  lemma IndexInEpisode(n: int, variants: seq<Variant>, prefix: seq<Rollout>, last: seq<Rollout>)
    requires n >= 1 && |prefix| == (n - 1) * |variants| && |last| == |variants|
    requires forall j :: 0 <= j < |last| ==> last[j].episode == n && last[j].variant == variants[j]
    requires EpisodeMajor(prefix, variants)
    ensures EpisodeMajor(prefix + last, variants)
  {
    var v := |variants|;
    if v > 0 {
      forall k | |prefix| <= k < |prefix + last|
        ensures (prefix + last)[k].episode == k / v + 1 && (prefix + last)[k].variant == variants[k % v]
      {
        var j := k - |prefix|;
        DivModUnique(k, v, n - 1, j);
      }
    }
  }

  /** `LORL_EVAL_INSTRS`: each canonical instruction with its rephrasal
      types, and each type with its phrasings, in dictionary order. */
  type InstructionTable = seq<(string, seq<(string, seq<string>)>)>

  /** Number of phrasings of one instruction, over all rephrasal types. */
  function KindsCount(kinds: seq<(string, seq<string>)>): nat {
    if |kinds| == 0 then 0 else KindsCount(kinds[..|kinds| - 1]) + |kinds[|kinds| - 1].1|
  }

  /** Sum over instructions and rephrasal types of the phrasing-list length. */
  function PhrasingCount(table: InstructionTable): nat {
    if |table| == 0 then 0 else PhrasingCount(table[..|table| - 1]) + KindsCount(table[|table| - 1].1)
  }

  function KindPhrasings(original: string, kinds: seq<(string, seq<string>)>): (r: seq<Variant>)
    ensures |r| == KindsCount(kinds)
    ensures forall j :: 0 <= j < |r| ==> r[j].Phrasing? && r[j].original == original
  {
    if |kinds| == 0 then []
    else
      var (kind, texts) := kinds[|kinds| - 1];
      KindPhrasings(original, kinds[..|kinds| - 1])
        + seq(|texts|, t requires 0 <= t < |texts| => Phrasing(original, kind, texts[t]))
  }

  /** The nested `for orig_instr ...: for rephrasal_type ...: for instr ...`
      loop body of one Lorl episode, flattened in loop order. */
  function Phrasings(table: InstructionTable): (r: seq<Variant>)
    ensures |r| == PhrasingCount(table)
    ensures forall j :: 0 <= j < |r| ==> r[j].Phrasing?
  {
    if |table| == 0 then []
    else Phrasings(table[..|table| - 1]) + KindPhrasings(table[|table| - 1].0, table[|table| - 1].1)
  }

  /** The phrasings of one instruction run type by type: phrasing `t` of
      type `j` sits right after the phrasings of the types before `j`. */
  lemma {:induction false} KindPhrasingsAt(original: string, kinds: seq<(string, seq<string>)>, j: nat, t: nat)
    requires j < |kinds| && t < |kinds[j].1|
    ensures KindsCount(kinds[..j]) + t < KindsCount(kinds)
    ensures KindPhrasings(original, kinds)[KindsCount(kinds[..j]) + t] == Phrasing(original, kinds[j].0, kinds[j].1[t])
  {
    var n := |kinds|;
    var front := kinds[..n - 1];
    if j == n - 1 {
      assert kinds[..j] == front;
    } else {
      KindPhrasingsAt(original, front, j, t);
      assert front[..j] == kinds[..j];
    }
  }

  /** Conversely every entry of the list is some phrasing of the table, at
      exactly the position the forward lemma gives it. */
  lemma {:induction false} KindPhrasingsFrom(original: string, kinds: seq<(string, seq<string>)>, i: nat)
    requires i < |KindPhrasings(original, kinds)|
    ensures exists j, t ::
      && 0 <= j < |kinds| && 0 <= t < |kinds[j].1|
      && i == KindsCount(kinds[..j]) + t
      && KindPhrasings(original, kinds)[i] == Phrasing(original, kinds[j].0, kinds[j].1[t])
  {
    var n := |kinds|;
    var front := kinds[..n - 1];
    if i < KindsCount(front) {
      KindPhrasingsFrom(original, front, i);
      var j, t :| 0 <= j < |front| && 0 <= t < |front[j].1|
        && i == KindsCount(front[..j]) + t
        && KindPhrasings(original, front)[i] == Phrasing(original, front[j].0, front[j].1[t]);
      assert front[..j] == kinds[..j];
      assert KindPhrasings(original, kinds)[i] == KindPhrasings(original, front)[i];
    } else {
      var t := i - KindsCount(front);
      assert kinds[..n - 1] == front;
      assert KindPhrasings(original, kinds)[i] == Phrasing(original, kinds[n - 1].0, kinds[n - 1].1[t]);
    }
  }

  /** The Lorl loop order: instruction `i`, rephrasal type `j`, phrasing `t`
      comes after every phrasing of the earlier instructions and of the
      earlier types of instruction `i`. */
  lemma {:induction false} PhrasingsAt(table: InstructionTable, i: nat, j: nat, t: nat)
    requires i < |table| && j < |table[i].1| && t < |table[i].1[j].1|
    ensures PhrasingCount(table[..i]) + KindsCount(table[i].1[..j]) + t < PhrasingCount(table)
    ensures Phrasings(table)[PhrasingCount(table[..i]) + KindsCount(table[i].1[..j]) + t]
      == Phrasing(table[i].0, table[i].1[j].0, table[i].1[j].1[t])
  {
    var n := |table|;
    var front := table[..n - 1];
    if i == n - 1 {
      assert table[..i] == front;
      KindPhrasingsAt(table[i].0, table[i].1, j, t);
    } else {
      PhrasingsAt(front, i, j, t);
      assert front[..i] == table[..i];
    }
  }

  /** Conversely every Lorl variant is a phrasing of the table, at the
      position the loop order gives it. */
  lemma {:induction false} PhrasingsFrom(table: InstructionTable, k: nat)
    requires k < |Phrasings(table)|
    ensures exists i, j, t ::
      && 0 <= i < |table| && 0 <= j < |table[i].1| && 0 <= t < |table[i].1[j].1|
      && k == PhrasingCount(table[..i]) + KindsCount(table[i].1[..j]) + t
      && Phrasings(table)[k] == Phrasing(table[i].0, table[i].1[j].0, table[i].1[j].1[t])
  {
    var front := table[..|table| - 1];
    if k < PhrasingCount(front) {
      PhrasingsFrom(front, k);
      var i, j, t :| 0 <= i < |front| && 0 <= j < |front[i].1| && 0 <= t < |front[i].1[j].1|
        && k == PhrasingCount(front[..i]) + KindsCount(front[i].1[..j]) + t
        && Phrasings(front)[k] == Phrasing(front[i].0, front[i].1[j].0, front[i].1[j].1[t]);
      PhrasingOfFront(table, k, i, j, t);
    } else {
      PhrasingOfLast(table, k);
    }
  }

  /** A phrasing at position k of all instructions but the last keeps its
      place once the last instruction is appended. */
  lemma PhrasingOfFront(table: InstructionTable, k: nat, i: nat, j: nat, t: nat)
    requires |table| > 0
    requires var front := table[..|table| - 1];
      && i < |front| && j < |front[i].1| && t < |front[i].1[j].1|
      && k == PhrasingCount(front[..i]) + KindsCount(front[i].1[..j]) + t
      && k < |Phrasings(front)|
      && Phrasings(front)[k] == Phrasing(front[i].0, front[i].1[j].0, front[i].1[j].1[t])
    ensures i < |table| && j < |table[i].1| && t < |table[i].1[j].1|
    ensures k == PhrasingCount(table[..i]) + KindsCount(table[i].1[..j]) + t
    ensures k < |Phrasings(table)|
    ensures Phrasings(table)[k] == Phrasing(table[i].0, table[i].1[j].0, table[i].1[j].1[t])
  {
    var front := table[..|table| - 1];
    assert front[..i] == table[..i] && front[i] == table[i];
    assert Phrasings(table)[k] == Phrasings(front)[k];
  }

  /** A position past the earlier instructions' phrasings holds a phrasing
      of the last instruction, at its loop position. */
  lemma PhrasingOfLast(table: InstructionTable, k: nat)
    requires |table| > 0
    requires PhrasingCount(table[..|table| - 1]) <= k < |Phrasings(table)|
    ensures exists i, j, t ::
      && 0 <= i < |table| && 0 <= j < |table[i].1| && 0 <= t < |table[i].1[j].1|
      && k == PhrasingCount(table[..i]) + KindsCount(table[i].1[..j]) + t
      && Phrasings(table)[k] == Phrasing(table[i].0, table[i].1[j].0, table[i].1[j].1[t])
  {
    var n := |table|;
    var front, last := table[..n - 1], table[n - 1];
    var rest := k - PhrasingCount(front);
    KindPhrasingsFrom(last.0, last.1, rest);
    var j, t :| 0 <= j < |last.1| && 0 <= t < |last.1[j].1|
      && rest == KindsCount(last.1[..j]) + t
      && KindPhrasings(last.0, last.1)[rest] == Phrasing(last.0, last.1[j].0, last.1[j].1[t]);
    assert Phrasings(table)[k] == KindPhrasings(last.0, last.1)[rest];
    assert k == PhrasingCount(table[..n - 1]) + KindsCount(table[n - 1].1[..j]) + t;
  }

  /** `task_list.keys()` and `LORL_EVAL_INSTRS`. */
  datatype Registry = Registry(tasks: seq<string>, lorl: InstructionTable)

  /** Evaluation arguments and the fields of the trainer they read. */
  datatype EvalSettings = EvalSettings(
    numEpisodes: int, render: bool, renderFreq: int,
    episodeFactor: int, datasetMaxLength: int)

  datatype EvalPlan =
    | RolloutPlan(family: Family, maxEpisodeLength: int, rollouts: seq<Rollout>)
    | ValidationPass

  /** `i % render_freq` with `render_freq == 0` raises once the first
      rollout is done; `rephrasal_wise_stats[rephrasal_type]` raises
      `KeyError` after the first rollout of a type it has no key for. */
  datatype EvalError = ZeroRenderFrequency | UnknownRephrasalType(kind: string)

  /** The keys of `rephrasal_wise_stats`. */
  const RephrasalKinds: set<string> := {"seen", "unseen verb", "unseen noun", "unseen verb noun", "human"}

  /** Every phrasing's rephrasal type is a key of `rephrasal_wise_stats`
      (a type with no phrasings is never looked up). */
  predicate KnownKinds(variants: seq<Variant>) {
    forall k :: 0 <= k < |variants| && variants[k].Phrasing? ==> variants[k].kind in RephrasalKinds
  }

  /** The position of the phrasing whose rollout meets the `KeyError`. */
  function FirstUnknownKind(variants: seq<Variant>): (k: nat)
    requires !KnownKinds(variants)
    ensures k < |variants| && variants[k].Phrasing? && variants[k].kind !in RephrasalKinds
  {
    if variants[0].Phrasing? && variants[0].kind !in RephrasalKinds then 0
    else 1 + FirstUnknownKind(variants[1..])
  }

  /** Every phrasing before that position has a known type, so it is the
      first failing lookup in loop order. */
  lemma {:induction false} FirstUnknownKindIsFirst(variants: seq<Variant>)
    requires !KnownKinds(variants)
    ensures KnownKinds(variants[..FirstUnknownKind(variants)])
  {
    if !(variants[0].Phrasing? && variants[0].kind !in RephrasalKinds) {
      var k := FirstUnknownKind(variants);
      FirstUnknownKindIsFirst(variants[1..]);
      assert variants[..k] == [variants[0]] + variants[1..][..k - 1];
    }
  }

  function Variants(f: Family, registry: Registry): seq<Variant> {
    match f
    case MetaWorld => seq(|registry.tasks|, j requires 0 <= j < |registry.tasks| => Task(registry.tasks[j]))
    case Lorl => Phrasings(registry.lorl)
    case _ => [Plain]
  }

  /** `max_ep_len` per branch: 50 for MetaWorld, the dataset's maximum length
      for Lorl, `eval_episode_factor` times it for BabyAI and Hopper. */
  function MaxEpisodeLength(f: Family, settings: EvalSettings): int {
    match f
    case MetaWorld => 50
    case Lorl => settings.datasetMaxLength
    case _ => settings.episodeFactor * settings.datasetMaxLength
  }

  /** The rollouts Trainer.evaluate performs, or the validation pass. A
      zero render frequency raises after the first rollout; otherwise a Lorl
      run raises after the first rollout of a phrasing whose type has no
      statistics key. */
  function Plan(setup: EnvSetup, settings: EvalSettings, registry: Registry): (r: Result<EvalPlan, EvalError>)
    ensures Dispatch(setup) == ValidationLoss <==> r == Success(ValidationPass)
    ensures r.Failure? && r.error.UnknownRephrasalType? ==>
      && Dispatch(setup) == Lorl && settings.numEpisodes >= 1
      && var vs := Phrasings(registry.lorl);
      && !KnownKinds(vs) && r.error.kind == vs[FirstUnknownKind(vs)].kind
  {
    var f := Dispatch(setup);
    if f == ValidationLoss then Success(ValidationPass)
    else
      var variants := Variants(f, registry);
      if settings.render && settings.renderFreq == 0 then
        if settings.numEpisodes >= 1 && |variants| > 0 then Failure(ZeroRenderFrequency)
        else Success(RolloutPlan(f, MaxEpisodeLength(f, settings), []))
      else if f == Lorl && settings.numEpisodes >= 1 && !KnownKinds(variants) then
        Failure(UnknownRephrasalType(variants[FirstUnknownKind(variants)].kind))
      else
        Success(RolloutPlan(f, MaxEpisodeLength(f, settings),
          Rollouts(settings.numEpisodes, variants, f == MetaWorld, settings.render, settings.renderFreq)))
  }

  /** Rollout counts per family: N x tasks for MetaWorld, N x (sum of
      phrasing-list lengths) for Lorl, N for BabyAI and Hopper; episode
      indices run over 1..N in order; only MetaWorld seeds its rollouts, and
      every seed lies in [0, 51511); a rollout is rendered exactly when
      rendering is on and its episode index is a multiple of the frequency.
      With a non-zero frequency, only an unknown rephrasal type fails. */
  lemma PlanRollouts(setup: EnvSetup, settings: EvalSettings, registry: Registry)
    requires settings.numEpisodes >= 0
    requires settings.render ==> settings.renderFreq != 0
    ensures var r := Plan(setup, settings, registry);
      var n := settings.numEpisodes;
      && (r.Failure? <==> Dispatch(setup) == Lorl && n >= 1 && !KnownKinds(Phrasings(registry.lorl)))
      && (r.Success? && r.value.RolloutPlan? ==>
          var rs := r.value.rollouts;
          && r.value.family == Dispatch(setup)
          && (r.value.family == MetaWorld ==> |rs| == n * |registry.tasks|)
          && (r.value.family == Lorl ==> |rs| == n * PhrasingCount(registry.lorl))
          && (r.value.family in {BabyAI, Hopper} ==> |rs| == n)
          && RolloutsAsPromised(rs, n, r.value.family == MetaWorld, settings.render, settings.renderFreq))
  {
    PlanFailures(setup, settings, registry);
    PlanRolloutFacts(setup, settings, registry);
    var phrasings := Variants(Lorl, registry);
    assert phrasings == Phrasings(registry.lorl);
    if !KnownKinds(phrasings) {
      assert FirstUnknownKind(phrasings) < |phrasings|;
    }
  }

  /** The rollout list of a plan that runs rollouts. */
  lemma PlanRolloutFacts(setup: EnvSetup, settings: EvalSettings, registry: Registry)
    requires settings.numEpisodes >= 0
    requires settings.render ==> settings.renderFreq != 0
    ensures var r := Plan(setup, settings, registry);
      var n := settings.numEpisodes;
      (r.Success? && r.value.RolloutPlan? ==>
          var rs := r.value.rollouts;
          && r.value.family == Dispatch(setup)
          && (r.value.family == MetaWorld ==> |rs| == n * |registry.tasks|)
          && (r.value.family == Lorl ==> |rs| == n * PhrasingCount(registry.lorl))
          && (r.value.family in {BabyAI, Hopper} ==> |rs| == n)
          && RolloutsAsPromised(rs, n, r.value.family == MetaWorld, settings.render, settings.renderFreq))
  {
    var f := Dispatch(setup);
    if f == Lorl && settings.numEpisodes >= 1 && !KnownKinds(Phrasings(registry.lorl)) {
      assert Variants(f, registry) == Phrasings(registry.lorl);
      assert Plan(setup, settings, registry).Failure?;
    } else if f != ValidationLoss {
      PlanIsRollouts(setup, settings, registry);
      RolloutsShape(settings.numEpisodes, Variants(f, registry), f == MetaWorld, settings.render, settings.renderFreq);
      VariantCounts(f, registry);
    }
  }

  /** One variant per MetaWorld task, per Lorl phrasing, and a single one
      for BabyAI and Hopper. */
  lemma VariantCounts(f: Family, registry: Registry)
    ensures f == MetaWorld ==> |Variants(f, registry)| == |registry.tasks|
    ensures f == Lorl ==> |Variants(f, registry)| == PhrasingCount(registry.lorl)
    ensures f in {BabyAI, Hopper} ==> |Variants(f, registry)| == 1
  {
  }

  /** A rollout family that neither renders with a zero frequency nor meets
      an unknown rephrasal type runs the full rollout list. */
  lemma PlanIsRollouts(setup: EnvSetup, settings: EvalSettings, registry: Registry)
    requires settings.render ==> settings.renderFreq != 0
    requires Dispatch(setup) != ValidationLoss
    requires !(Dispatch(setup) == Lorl && settings.numEpisodes >= 1 && !KnownKinds(Phrasings(registry.lorl)))
    ensures var f := Dispatch(setup);
      Plan(setup, settings, registry) == Success(RolloutPlan(f, MaxEpisodeLength(f, settings),
        Rollouts(settings.numEpisodes, Variants(f, registry), f == MetaWorld, settings.render, settings.renderFreq)))
  {
  }

  /** Episodes run over 1..n in order; a rollout carries a seed, in
      [0, 51511), iff the family is seeded; it is rendered iff rendering is
      on and its episode index is a multiple of the frequency. */
  predicate RolloutsAsPromised(rs: seq<Rollout>, n: int, seeded: bool, render: bool, renderFreq: int)
    requires render ==> renderFreq != 0
  {
    && (forall k :: 0 <= k < |rs| ==> 1 <= rs[k].episode <= n)
    && (forall k, l :: 0 <= k <= l < |rs| ==> rs[k].episode <= rs[l].episode)
    && (forall k :: 0 <= k < |rs| ==> (rs[k].seed.Some? <==> seeded))
    && (forall k :: 0 <= k < |rs| && rs[k].seed.Some? ==> 0 <= rs[k].seed.value < 51511)
    && (forall k :: 0 <= k < |rs| ==> (rs[k].render <==> render && rs[k].episode % renderFreq == 0))
  }

  /** N x V rollouts, with the episode order, seeds and render flags promised. */
  lemma RolloutsShape(n: int, variants: seq<Variant>, seeded: bool, render: bool, renderFreq: int)
    requires n >= 0 && (render ==> renderFreq != 0)
    ensures var rs := Rollouts(n, variants, seeded, render, renderFreq);
      && |rs| == n * |variants|
      && RolloutsAsPromised(rs, n, seeded, render, renderFreq)
  {
    var rs := Rollouts(n, variants, seeded, render, renderFreq);
    assert EpisodesInOrder(rs, n);
    assert PerEpisodeFlags(rs, seeded, render, renderFreq);
  }

  /** The episode cap handed to every rollout: the `max_ep_len` argument is
      always overridden, by 50 for MetaWorld, the dataset's maximum length
      for Lorl, and `eval_episode_factor` times it for BabyAI and Hopper. */
  lemma EpisodeCaps(setup: EnvSetup, settings: EvalSettings, registry: Registry)
    requires Plan(setup, settings, registry).Success? && Plan(setup, settings, registry).value.RolloutPlan?
    ensures var p := Plan(setup, settings, registry).value;
      && p.family == Dispatch(setup) && p.family != ValidationLoss
      && (p.family == MetaWorld ==> p.maxEpisodeLength == 50)
      && (p.family == Lorl ==> p.maxEpisodeLength == settings.datasetMaxLength)
      && (p.family in {BabyAI, Hopper} ==> p.maxEpisodeLength == settings.episodeFactor * settings.datasetMaxLength)
  {
  }

  /** MetaWorld enumerates episode-major: rollout k runs task k mod |tasks|
      in episode k div |tasks| + 1 with that episode's seed. */
  lemma MetaWorldOrder(setup: EnvSetup, settings: EvalSettings, registry: Registry, k: int)
    requires Dispatch(setup) == MetaWorld
    requires settings.render ==> settings.renderFreq != 0
    requires |registry.tasks| > 0
    requires Plan(setup, settings, registry).Success?
    requires 0 <= k < |Plan(setup, settings, registry).value.rollouts|
    ensures var ro := Plan(setup, settings, registry).value.rollouts[k];
      var t := |registry.tasks|;
      ro == Rollout(k / t + 1, Task(registry.tasks[k % t]), Some(Seed(k / t + 1)), ro.render)
  {
  }

  /** An error is raised exactly when a rollout is due and either rendering
      uses a zero frequency, or the run is Lorl and some phrasing's type has
      no statistics key; the zero frequency raises first. */
  lemma PlanFailures(setup: EnvSetup, settings: EvalSettings, registry: Registry)
    ensures Plan(setup, settings, registry) == Failure(ZeroRenderFrequency) <==>
      && Dispatch(setup) != ValidationLoss
      && settings.render && settings.renderFreq == 0
      && settings.numEpisodes >= 1 && |Variants(Dispatch(setup), registry)| > 0
    ensures Plan(setup, settings, registry).Failure? <==>
      && Dispatch(setup) != ValidationLoss
      && settings.numEpisodes >= 1 && |Variants(Dispatch(setup), registry)| > 0
      && ((settings.render && settings.renderFreq == 0)
          || (Dispatch(setup) == Lorl && !KnownKinds(Variants(Lorl, registry))))
  {
  }

  /** A Lorl table with a `paraphrase` type: its one rollout runs, then the
      statistics lookup fails. */
  lemma ParaphraseTypeRejected()
    ensures Plan(EnvSetup(true, "", "Lorl"), EvalSettings(1, false, 1, 1, 1),
                 Registry([], [("pick", [("paraphrase", ["grab"])])]))
      == Failure(UnknownRephrasalType("paraphrase"))
  {
    var table: InstructionTable := [("pick", [("paraphrase", ["grab"])])];
    var vs := Phrasings(table);
    assert KindPhrasings("pick", [("paraphrase", ["grab"])]) == [Phrasing("pick", "paraphrase", "grab")];
    assert vs == [Phrasing("pick", "paraphrase", "grab")];
    assert "paraphrase" !in RephrasalKinds;
    assert vs[0].Phrasing? && vs[0].kind !in RephrasalKinds;
    assert !KnownKinds(vs);
    assert FirstUnknownKind(vs) == 0;
    assert !Contains("MetaWorld", "") && !Contains("BabyAI", "Lorl") && Contains("Lorl", "Lorl");
  }

  /** The per-option token lists, reset at the start of every evaluation:
      one empty list per option, none for the vanilla method. */
  function InitialWords(m: Padding.Method, numOptions: int): (d: map<int, seq<string>>)
    ensures m == Padding.VanillaMethod ==> d == map[]
    ensures m != Padding.VanillaMethod ==> forall i :: i in d <==> 0 <= i < numOptions
    ensures forall i :: i in d ==> d[i] == []
  {
    if m == Padding.VanillaMethod then map[] else EmptyLists(numOptions)
  }

  /** `{i: [] for i in range(n)}` */
  function EmptyLists(n: int): (d: map<int, seq<string>>)
    ensures forall i :: i in d <==> 0 <= i < n
    ensures forall i :: i in d ==> d[i] == []
    decreases n
  {
    if n <= 0 then map[] else EmptyLists(n - 1)[n - 1 := []]
  }
}

=== FILE: losses.dfy ===
/** The loss functions of the trainer module: `imitation_loss`,
    `state_reconstruction_loss` and `lang_reconstruction_loss`, and the
    composition of the per-batch loss. The numerical kernels (cross-entropy,
    mean-squared error, the inverse-Q critic, `mean`) are external; a loss is
    modelled by WHICH kernel it applies to WHICH arguments, and a `Numerics`
    record of opaque functions turns that into a `real`. */
module Losses {
  import opened Options

  /** A tensor handed to a loss, after reshaping and masking. */
  datatype Tensor =
    | Rows(rows: seq<seq<real>>)        // N x d: predictions, continuous targets, Q values
    | Labels(labels: seq<int>)          // N: class-index targets, done flags
    | Grid(cells: seq<seq<seq<real>>>)  // B x T x A: next-state Q values

  /** Leading dimension of a tensor. */
  function Len(t: Tensor): nat {
    match t
    case Rows(r) => |r|
    case Labels(l) => |l|
    case Grid(g) => |g|
  }

  /** An argument value as Python passes it to `imitation_loss`. */
  datatype Value = NoneV | BoolV(b: bool) | TensorV(t: Tensor)

  /** The model's `iq_critic_loss` callable (opaque). */
  datatype CriticFn = CriticFn(name: string)

  /** The bound parameters of `imitation_loss(action_preds, action_targets,
      state_preds=None, state_targets=None, q_preds=None, next_q=None,
      dones=None, discrete=True, loss_fn=None, step=0)`. */
  datatype Params = Params(
    actionPreds: Value, actionTargets: Value,
    statePreds: Value, stateTargets: Value,
    qPreds: Value, nextQ: Value, dones: Value,
    discrete: Value,
    lossFn: Option<CriticFn>, step: int)

  /** Number of parameters that come before the keyword-passed `loss_fn`. */
  const PositionalSlots: nat := 8

  /** The parameter in position k (0 <= k < 8) of the signature. */
  function Slot(p: Params, k: nat): Value
    requires k < PositionalSlots
  {
    match k
    case 0 => p.actionPreds
    case 1 => p.actionTargets
    case 2 => p.statePreds
    case 3 => p.stateTargets
    case 4 => p.qPreds
    case 5 => p.nextQ
    case 6 => p.dones
    case _ => p.discrete
  }

  /** Default of an optional parameter: `None`, except `discrete=True`. */
  function Default(k: nat): Value
    requires 2 <= k < PositionalSlots
  {
    if k == 7 then BoolV(true) else NoneV
  }

  datatype BindError = MissingArgument(name: string) | MultipleValues(name: string)

  /** Python's binding of a call `imitation_loss(*pos, loss_fn=..., step=...)`.
      Both call sites pass `loss_fn` and `step` by keyword, so a ninth
      positional argument collides with `loss_fn`. */
  function BindImitation(pos: seq<Value>, lossFn: Option<CriticFn>, step: int): (r: Result<Params, BindError>)
    ensures r.Success? <==> 2 <= |pos| <= PositionalSlots
    ensures |pos| > PositionalSlots ==> r == Failure(MultipleValues("loss_fn"))
    ensures |pos| < 2 ==> r.Failure? && r.error.MissingArgument?
    ensures r.Success? ==> forall k :: 0 <= k < |pos| ==> Slot(r.value, k) == pos[k]
    ensures r.Success? ==> forall k :: |pos| <= k < PositionalSlots ==> Slot(r.value, k) == Default(k)
    ensures r.Success? ==> r.value.lossFn == lossFn && r.value.step == step
  {
    if |pos| > PositionalSlots then Failure(MultipleValues("loss_fn"))
    else if |pos| == 0 then Failure(MissingArgument("action_preds"))
    else if |pos| == 1 then Failure(MissingArgument("action_targets"))
    else
      var arg := (k: nat) requires 2 <= k < PositionalSlots => if k < |pos| then pos[k] else Default(k);
      Success(Params(pos[0], pos[1], arg(2), arg(3), arg(4), arg(5), arg(6), arg(7), lossFn, step))
  }

  /** Which kernel computes the action loss, and on what. */
  datatype ActLoss =
    | CriticLoss(fn: CriticFn, q: Value, nextQ: Value, targets: Value, dones: Value, step: int)
    | CrossEntropy(preds: Value, targets: Value)
    | MeanSquared(preds: Value, targets: Value)

  datatype StateLoss = StateMse(preds: Value, targets: Value) | NoStateLoss

  /** `if discrete:` on a tensor is not modelled (its truth value depends on
      its contents and raises for more than one element). */
  datatype LossError = AmbiguousTruth

  /** Python truthiness of a non-tensor value. */
  function Truth(v: Value): Option<bool> {
    match v
    case NoneV => Some(false)
    case BoolV(b) => Some(b)
    case TensorV(_) => None
  }

  /** The critic branch runs exactly when `q_preds is not None and loss_fn is not None`. */
  predicate UsesCritic(p: Params) {
    p.qPreds != NoneV && p.lossFn.Some?
  }

  /** `imitation_loss`: the critic replaces the plain action loss when both a
      Q prediction and a critic are given; otherwise cross-entropy for a
      discrete action space and MSE for a continuous one. The state loss is
      computed only when both state arguments are present. */
  function ImitationLoss(p: Params): (r: Result<(ActLoss, StateLoss), LossError>)
    ensures r.Failure? <==> !UsesCritic(p) && p.discrete.TensorV?
    ensures r.Success? ==> (r.value.0.CriticLoss? <==> UsesCritic(p))
    ensures r.Success? && !UsesCritic(p) ==> (r.value.0.CrossEntropy? <==> Truth(p.discrete) == Some(true))
    ensures r.Success? && !UsesCritic(p) ==> (r.value.0.MeanSquared? <==> Truth(p.discrete) == Some(false))
    ensures r.Success? && r.value.0.CriticLoss? ==>
      r.value.0.q == p.qPreds && r.value.0.nextQ == p.nextQ && r.value.0.targets == p.actionTargets
      && r.value.0.dones == p.dones && r.value.0.step == p.step
    ensures r.Success? && !r.value.0.CriticLoss? ==>
      r.value.0.preds == p.actionPreds && r.value.0.targets == p.actionTargets
    ensures r.Success? ==> (r.value.1.StateMse? <==> p.statePreds != NoneV && p.stateTargets != NoneV)
  {
    var state := if p.statePreds != NoneV && p.stateTargets != NoneV
      then StateMse(p.statePreds, p.stateTargets) else NoStateLoss;
    if p.qPreds != NoneV && p.lossFn.Some? then
      Success((CriticLoss(p.lossFn.value, p.qPreds, p.nextQ, p.actionTargets, p.dones, p.step), state))
    else
      match Truth(p.discrete)
      case None => Failure(AmbiguousTruth)
      case Some(true) => Success((CrossEntropy(p.actionPreds, p.actionTargets), state))
      case Some(false) => Success((MeanSquared(p.actionPreds, p.actionTargets), state))
  }

  /** A reconstruction loss: MSE of the pair, or zero. */
  datatype RcLoss = RcMse(preds: Tensor, targets: Tensor) | RcZero

  /** `state_reconstruction_loss` and `lang_reconstruction_loss` (identical
      bodies): MSE when both sides are present, exact zero otherwise. */
  function ReconstructionLoss(preds: Option<Tensor>, targets: Option<Tensor>): (r: RcLoss)
    ensures r.RcMse? <==> preds.Some? && targets.Some?
    ensures r.RcMse? ==> r.preds == preds.value && r.targets == targets.value
  {
    if preds.Some? && targets.Some? then RcMse(preds.value, targets.value) else RcZero
  }

  /** The external numerical kernels. */
  datatype Numerics = Numerics(
    crossEntropy: (Value, Value) -> real,
    mse: (Value, Value) -> real,
    critic: (CriticFn, Value, Value, Value, Value, int) -> real,
    mean: Tensor -> real)

  function ActValue(a: ActLoss, num: Numerics): real {
    match a
    case CriticLoss(fn, q, nq, t, d, s) => num.critic(fn, q, nq, t, d, s)
    case CrossEntropy(p, t) => num.crossEntropy(p, t)
    case MeanSquared(p, t) => num.mse(p, t)
  }

  /** `torch.zeros([])` when the state loss is skipped. */
  function StateValue(s: StateLoss, num: Numerics): (r: real)
    ensures s.NoStateLoss? ==> r == 0.0
  {
    match s
    case StateMse(p, t) => num.mse(p, t)
    case NoStateLoss => 0.0
  }

  function RcValue(l: RcLoss, num: Numerics): (r: real)
    ensures l.RcZero? ==> r == 0.0
  {
    match l
    case RcMse(p, t) => num.mse(TensorV(p), TensorV(t))
    case RcZero => 0.0
  }

  /** An optional scalar loss (commitment or option loss, possibly one value
      per device): its mean, or exact zero when absent. */
  function ScalarOrZero(v: Option<Tensor>, num: Numerics): (r: real)
    ensures v.None? ==> r == 0.0
    ensures v.Some? ==> r == num.mean(v.value)
  {
    match v
    case None => 0.0
    case Some(t) => num.mean(t)
  }

  /** The six terms of the training loss, each already defaulted to zero. */
  datatype LossTerms = LossTerms(act: real, state: real, options: real, stateRc: real, langRc: real, commitment: real)

  /** `act_loss + state_loss + options_loss + state_rc_loss + lang_rc_loss + commitment_loss` */
  function TrainingTotal(t: LossTerms): (r: real)
    ensures t.options == 0.0 && t.stateRc == 0.0 && t.langRc == 0.0 && t.commitment == 0.0 ==> r == t.act + t.state
  {
    t.act + t.state + t.options + t.stateRc + t.langRc + t.commitment
  }

  /** The validation fallback adds only four terms: no option loss, no commitment loss. */
  function ValidationTotal(t: LossTerms): (r: real)
    ensures r == TrainingTotal(t.(options := 0.0, commitment := 0.0))
  {
    t.act + t.state + t.stateRc + t.langRc
  }

  /** The validation total misses exactly the option and commitment terms. */
  lemma ValidationOmitsOptionAndCommitment(t: LossTerms)
    ensures ValidationTotal(t) == TrainingTotal(t) - t.options - t.commitment
    ensures t.options == 0.0 && t.commitment == 0.0 ==> ValidationTotal(t) == TrainingTotal(t)
  {
  }
}

=== FILE: masking.dfy ===
/** Mask-driven flatten-and-filter from Trainer.train_iteration: a B x T batch
    is flattened to B*T rows and only the rows whose flattened mask entry is
    positive are kept, in their original order. Boolean indexing of a tensor
    with a mask of another size raises, which is the `ShapeMismatch` failure. */
module Masking {
  import opened Options
  import opened Arith
  import Padding

  /** Number of mask entries that select a row (`mask > 0`). */
  function Count(m: seq<int>): (c: nat)
    ensures c <= |m|
  {
    if |m| == 0 then 0 else Count(m[..|m| - 1]) + (if m[|m| - 1] > 0 then 1 else 0)
  }

  lemma {:induction false} CountAppend(a: seq<int>, b: seq<int>)
    ensures Count(a + b) == Count(a) + Count(b)
  {
    if |b| > 0 {
      var b' := b[..|b| - 1];
      assert (a + b)[..|a + b| - 1] == a + b';
      CountAppend(a, b');
    } else {
      assert a + b == a;
    }
  }

  /** A mask whose every entry is positive selects every row. */
  lemma {:induction false} CountAllPositive(m: seq<int>)
    requires forall t :: 0 <= t < |m| ==> m[t] > 0
    ensures Count(m) == |m|
  {
    if |m| > 0 {
      CountAllPositive(m[..|m| - 1]);
    }
  }

  /** A mask whose every entry is non-positive selects nothing. */
  lemma {:induction false} CountNonePositive(m: seq<int>)
    requires forall t :: 0 <= t < |m| ==> m[t] <= 0
    ensures Count(m) == 0
  {
    if |m| > 0 {
      CountNonePositive(m[..|m| - 1]);
    }
  }

  /** The flattened positions a mask selects: exactly the positive entries,
      in increasing order. */
  function Positions(m: seq<int>): (r: seq<nat>)
    ensures |r| == Count(m)
    ensures forall k :: 0 <= k < |r| ==> r[k] < |m| && m[r[k]] > 0
    ensures forall k, l :: 0 <= k < l < |r| ==> r[k] < r[l]
  {
    if |m| == 0 then []
    else Positions(m[..|m| - 1]) + (if m[|m| - 1] > 0 then [|m| - 1] else [])
  }

  /** No selected row is missed: every positive mask entry's index is among
      the positions. */
  lemma {:induction false} PositionsComplete(m: seq<int>, i: nat)
    requires i < |m| && m[i] > 0
    ensures i in Positions(m)
  {
    var n := |m| - 1;
    if i < n {
      assert m[..n][i] == m[i];
      PositionsComplete(m[..n], i);
    }
  }

  /** `xs[mask > 0]` on two flat sequences of the same length. */
  function Select<T>(xs: seq<T>, m: seq<int>): (r: seq<T>)
    requires |xs| == |m|
    ensures |r| == Count(m)
    ensures forall k :: 0 <= k < |r| ==> r[k] == xs[Positions(m)[k]]
  {
    if |xs| == 0 then []
    else Select(xs[..|xs| - 1], m[..|m| - 1]) + (if m[|m| - 1] > 0 then [xs[|xs| - 1]] else [])
  }

  lemma {:induction false} SelectAppend<T>(xs: seq<T>, ys: seq<T>, mx: seq<int>, my: seq<int>)
    requires |xs| == |mx| && |ys| == |my|
    ensures Select(xs + ys, mx + my) == Select(xs, mx) + Select(ys, my)
  {
    if |ys| > 0 {
      var ys', my' := ys[..|ys| - 1], my[..|my| - 1];
      assert (xs + ys)[..|xs + ys| - 1] == xs + ys';
      assert (mx + my)[..|mx + my| - 1] == mx + my';
      SelectAppend(xs, ys', mx, my');
    } else {
      assert xs + ys == xs;
      assert mx + my == mx;
    }
  }

  /** `reshape(-1, ...)` of a batch: its rows one after another. */
  function Flatten<T>(b: seq<seq<T>>): seq<T>
  {
    if |b| == 0 then [] else Flatten(b[..|b| - 1]) + b[|b| - 1]
  }

  /** Batch and mask agree row by row in length. */
  predicate RowsAgree<T, U>(b: seq<seq<T>>, m: seq<seq<U>>) {
    |b| == |m| && forall i :: 0 <= i < |b| ==> |b[i]| == |m[i]|
  }

  lemma {:induction false} FlattenRowsAgree<T, U>(b: seq<seq<T>>, m: seq<seq<U>>)
    requires RowsAgree(b, m)
    ensures |Flatten(b)| == |Flatten(m)|
  {
    if |b| > 0 {
      FlattenRowsAgree(b[..|b| - 1], m[..|m| - 1]);
    }
  }

  /** A batch whose every row holds `t` entries flattens to `|b| * t` entries. */
  lemma {:induction false} FlattenRectangular<T>(b: seq<seq<T>>, t: nat)
    requires forall i :: 0 <= i < |b| ==> |b[i]| == t
    ensures |Flatten(b)| == |b| * t
  {
    if |b| > 0 {
      FlattenRectangular(b[..|b| - 1], t);
      assert |b| * t == (|b| - 1) * t + t;
    }
  }

  /** Every row has width `w`. */
  predicate AllWidth<T>(rows: seq<seq<T>>, w: nat) {
    forall i :: 0 <= i < |rows| ==> |rows[i]| == w
  }

  /** Flattening one level of a B x T x w tensor keeps rows of width w. */
  lemma {:induction false} FlattenKeepsWidth<T>(v: seq<seq<seq<T>>>, w: nat)
    requires forall b, s :: 0 <= b < |v| && 0 <= s < |v[b]| ==> |v[b][s]| == w
    ensures AllWidth(Flatten(v), w)
  {
    if |v| > 0 {
      var front := v[..|v| - 1];
      FlattenKeepsWidth(front, w);
      assert Flatten(v) == Flatten(front) + v[|v| - 1];
    }
  }

  /** `n` consecutive rows of width `w` cut from a run of `n * w` entries. */
  function ChunkRows<T>(xs: seq<T>, w: nat, n: nat): (r: seq<seq<T>>)
    requires |xs| == n * w
    ensures |r| == n
    ensures AllWidth(r, w)
    ensures Flatten(r) == xs
    decreases n
  {
    if n == 0 then []
    else
      assert n * w == (n - 1) * w + w;
      var front := ChunkRows(xs[..(n - 1) * w], w, n - 1);
      var r := front + [xs[(n - 1) * w..]];
      assert r[..|r| - 1] == front;
      assert xs == xs[..(n - 1) * w] + xs[(n - 1) * w..];
      r
  }

  /** Cutting the flattening of equal-width rows gives the rows back. */
  lemma {:induction false} ChunkRowsOfFlatten<T>(rows: seq<seq<T>>, w: nat)
    requires AllWidth(rows, w)
    ensures |Flatten(rows)| == |rows| * w
    ensures ChunkRows(Flatten(rows), w, |rows|) == rows
  {
    FlattenRectangular(rows, w);
    if |rows| > 0 {
      var n := |rows|;
      var front := rows[..n - 1];
      ChunkRowsOfFlatten(front, w);
      var xs := Flatten(rows);
      assert xs == Flatten(front) + rows[n - 1];
      assert |Flatten(front)| == (n - 1) * w;
      assert xs[..(n - 1) * w] == Flatten(front);
      assert xs[(n - 1) * w..] == rows[n - 1];
      assert rows == front + [rows[n - 1]];
    }
  }

  datatype ShapeError =
    | ShapeMismatch(rows: nat, maskEntries: nat)   // boolean index of another size
    | ReshapeMismatch(elements: nat, width: nat)   // `reshape(-1, width)` that does not divide

  /** `xs.reshape(-1, w)`: rows of width `w` that flatten back to `xs`;
      torch raises unless `w > 0` divides the number of elements. */
  function Reshape<T>(xs: seq<T>, w: nat): (r: Result<seq<seq<T>>, ShapeError>)
    ensures r.Success? <==> w > 0 && |xs| % w == 0
    ensures r.Failure? ==> r.error == ReshapeMismatch(|xs|, w)
    ensures r.Success? ==> Flatten(r.value) == xs && AllWidth(r.value, w) && |r.value| == |xs| / w
  {
    if w == 0 || |xs| % w != 0 then Failure(ReshapeMismatch(|xs|, w))
    else
      DivModUnique(|xs|, w, |xs| / w, 0);
      Success(ChunkRows(xs, w, |xs| / w))
  }

  /** Reshaping the flattening of equal-width rows to that width is the identity. */
  lemma ReshapeOfFlatten<T>(rows: seq<seq<T>>, w: nat)
    requires w > 0 && AllWidth(rows, w)
    ensures Reshape(Flatten(rows), w) == Success(rows)
  {
    ChunkRowsOfFlatten(rows, w);
    DivModUnique(|rows| * w, w, |rows|, 0);
  }

  /** `batch.reshape(-1, d)[mask.reshape(-1) > 0]`: fails when the flattened
      sizes differ, otherwise keeps the selected rows in order. */
  function FilterRows<T>(b: seq<seq<T>>, mask: seq<seq<int>>): (r: Result<seq<T>, ShapeError>)
    ensures r.Success? <==> |Flatten(b)| == |Flatten(mask)|
    ensures r.Failure? ==> r.error == ShapeMismatch(|Flatten(b)|, |Flatten(mask)|)
    ensures r.Success? ==> |r.value| == Count(Flatten(mask))
    ensures r.Success? ==> forall k :: 0 <= k < |r.value| ==>
      r.value[k] == Flatten(b)[Positions(Flatten(mask))[k]]
  {
    var rows, entries := Flatten(b), Flatten(mask);
    if |rows| != |entries| then Failure(ShapeMismatch(|rows|, |entries|))
    else Success(Select(rows, entries))
  }

  /** Filtering a batch row by row gives the same rows as filtering it flat. */
  lemma {:induction false} SelectFlattenAppend<T>(b: seq<seq<T>>, m: seq<seq<int>>, row: seq<T>, mrow: seq<int>)
    requires RowsAgree(b, m) && |row| == |mrow|
    ensures |Flatten(b)| == |Flatten(m)|
    ensures Select(Flatten(b + [row]), Flatten(m + [mrow])) == Select(Flatten(b), Flatten(m)) + Select(row, mrow)
  {
    FlattenRowsAgree(b, m);
    assert (b + [row])[..|b + [row]| - 1] == b;
    assert (m + [mrow])[..|m + [mrow]| - 1] == m;
    SelectAppend(Flatten(b), row, Flatten(m), mrow);
  }

  /** One padded row selects what its original row selects. */
  lemma PaddedRowKeepsSelection<T>(prow: seq<T>, pmrow: seq<int>, row: seq<T>, mrow: seq<int>, n: nat)
    requires |row| == |mrow|
    requires Padding.IsPaddingOf(prow, row, n)
    requires Padding.IsMaskPaddingOf(pmrow, mrow, n)
    ensures Select(prow, pmrow) == Select(row, mrow)
  {
    var k := |row|;
    assert prow == row + prow[k..];
    assert pmrow == mrow + pmrow[k..];
    SelectAppend(row, prow[k..], mrow, pmrow[k..]);
    CountNonePositive(pmrow[k..]);
  }

  /** Filtering a batch is filtering all rows but the last, then the last row. */
  lemma SelectFlattenSplit<T>(b: seq<seq<T>>, m: seq<seq<int>>)
    requires RowsAgree(b, m) && |b| > 0
    ensures RowsAgree(b[..|b| - 1], m[..|m| - 1])
    ensures |Flatten(b)| == |Flatten(m)|
    ensures Select(Flatten(b), Flatten(m))
      == Select(Flatten(b[..|b| - 1]), Flatten(m[..|m| - 1])) + Select(b[|b| - 1], m[|m| - 1])
  {
    var i := |b| - 1;
    assert RowsAgree(b[..i], m[..i]);
    assert b == b[..i] + [b[i]];
    assert m == m[..i] + [m[i]];
    FlattenRowsAgree(b, m);
    SelectFlattenAppend(b[..i], m[..i], b[i], m[i]);
  }

  /** Padding relations carry over to the batch without its last row. */
  lemma PaddingOfFront<T>(pb: seq<seq<T>>, pm: seq<seq<int>>, b: seq<seq<T>>, m: seq<seq<int>>, n: nat)
    requires RowsAgree(b, m) && |b| > 0
    requires Padding.IsBatchPaddingOf(pb, b, n)
    requires Padding.IsMaskBatchPaddingOf(pm, m, n)
    ensures RowsAgree(pb, pm)
    ensures Padding.IsBatchPaddingOf(pb[..|pb| - 1], b[..|b| - 1], n)
    ensures Padding.IsMaskBatchPaddingOf(pm[..|pm| - 1], m[..|m| - 1], n)
  {
  }

  /** Padding that the mask marks as 0 is never selected: filtering the
      padded batch keeps exactly the rows filtering the original keeps. */
  lemma {:induction false} PaddingKeepsSelection<T>(pb: seq<seq<T>>, pm: seq<seq<int>>, b: seq<seq<T>>, m: seq<seq<int>>, n: nat)
    requires RowsAgree(b, m)
    requires Padding.IsBatchPaddingOf(pb, b, n)
    requires Padding.IsMaskBatchPaddingOf(pm, m, n)
    ensures |Flatten(b)| == |Flatten(m)| && |Flatten(pb)| == |Flatten(pm)|
    ensures Select(Flatten(pb), Flatten(pm)) == Select(Flatten(b), Flatten(m))
  {
    FlattenRowsAgree(b, m);
    if |b| == 0 {
      assert pb == [] && pm == [];
    } else {
      var i := |b| - 1;
      PaddingOfFront(pb, pm, b, m, n);
      SelectFlattenSplit(b, m);
      SelectFlattenSplit(pb, pm);
      PaddingKeepsSelection(pb[..i], pm[..i], b[..i], m[..i], n);
      PaddedRowKeepsSelection(pb[i], pm[i], b[i], m[i], n);
    }
  }

  /** `row[:-1]` */
  function DropLast(row: seq<int>): (r: seq<int>)
    ensures |r| == if |row| == 0 then 0 else |row| - 1
    ensures r <= row
  {
    if |row| == 0 then [] else row[..|row| - 1]
  }

  /** A row of `pred_attention_mask`: the prediction made at the final step
      has no next-state target, so that column is dropped. */
  function PredMaskRow(row: seq<int>): (r: seq<int>)
    ensures |r| == if |row| == 0 then 0 else |row| - 1
    ensures forall t :: 0 <= t < |r| ==> r[t] == row[t]
  {
    DropLast(row)
  }

  /** A row of `target_attention_mask`: a zero for the initial state, then the
      mask without its last column, so the target for prediction t is state t+1. */
  function TargetMaskRow(row: seq<int>): (r: seq<int>)
    ensures |r| == |PredMaskRow(row)| + 1
    ensures |row| >= 1 ==> |r| == |row|
    ensures r[0] == 0
    ensures forall t :: 0 <= t < |r| - 1 ==> r[t + 1] == PredMaskRow(row)[t]
  {
    [0] + DropLast(row)
  }

  function PredMask(mask: seq<seq<int>>): seq<seq<int>>
  {
    seq(|mask|, b requires 0 <= b < |mask| => PredMaskRow(mask[b]))
  }

  function TargetMask(mask: seq<seq<int>>): seq<seq<int>>
  {
    seq(|mask|, b requires 0 <= b < |mask| => TargetMaskRow(mask[b]))
  }

  /** Each row's shifted masks select the same number of steps. */
  lemma RowShiftedCountsAgree(row: seq<int>)
    ensures Count(TargetMaskRow(row)) == Count(PredMaskRow(row))
  {
    CountAppend([0], DropLast(row));
    assert Count([0]) == 0 by {
      assert [0][..0] == [];
    }
  }

  /** The shifted target and prediction masks select the same number of
      states across the whole batch, so the filtered state predictions and
      state targets line up one for one. */
  lemma {:induction false} ShiftedCountsAgree(mask: seq<seq<int>>)
    ensures Count(Flatten(TargetMask(mask))) == Count(Flatten(PredMask(mask)))
  {
    if |mask| > 0 {
      var i := |mask| - 1;
      var m' := mask[..i];
      ShiftedCountsAgree(m');
      assert TargetMask(mask)[..i] == TargetMask(m');
      assert PredMask(mask)[..i] == PredMask(m');
      CountAppend(Flatten(TargetMask(m')), TargetMaskRow(mask[i]));
      CountAppend(Flatten(PredMask(m')), PredMaskRow(mask[i]));
      RowShiftedCountsAgree(mask[i]);
    }
  }

  /** A fully valid trajectory of T >= 1 steps contributes T-1 state
      predictions and T-1 state targets (step 0 and step T-1 drop out). */
  lemma AllOnesRowShifted(row: seq<int>)
    requires |row| >= 1
    requires forall t :: 0 <= t < |row| ==> row[t] == 1
    ensures Count(PredMaskRow(row)) == |row| - 1
    ensures Count(TargetMaskRow(row)) == |row| - 1
  {
    CountAllPositive(PredMaskRow(row));
    RowShiftedCountsAgree(row);
  }

  lemma FlattenTwo<T>(x: seq<T>, y: seq<T>)
    ensures Flatten([x, y]) == x + y
  {
    var rows := [x, y];
    assert rows[..|rows| - 1] == [x];
    assert [x][..0] == [];
    assert Flatten([x]) == Flatten([x][..0]) + x;
    assert Flatten(rows) == Flatten([x]) + y;
  }

  /** Count of a row of `ones` ones followed by `zeros` zeros. */
  lemma CountOnesThenZeros(row: seq<int>, ones: nat)
    requires ones <= |row|
    requires forall t :: 0 <= t < ones ==> row[t] == 1
    requires forall t :: ones <= t < |row| ==> row[t] == 0
    ensures Count(row) == ones
  {
    var front, back := row[..ones], row[ones..];
    assert row == front + back;
    CountAppend(front, back);
    forall t | 0 <= t < |front|
      ensures front[t] > 0
    {
      assert front[t] == row[t];
    }
    CountAllPositive(front);
    forall t | 0 <= t < |back|
      ensures back[t] <= 0
    {
      assert back[t] == row[ones + t];
    }
    CountNonePositive(back);
  }

  /** Two trajectories of length 4, one fully valid and one padded after
      step 2: the mask keeps 4 + 2 action rows, and the shifted masks keep
      3 + 2 state predictions and 3 + 2 state targets. */
  lemma TwoTrajectoryExample()
    ensures var mask: seq<seq<int>> := [[1, 1, 1, 1], [1, 1, 0, 0]];
      && Count(Flatten(mask)) == 6
      && Count(Flatten(PredMask(mask))) == 5
      && Count(Flatten(TargetMask(mask))) == 5
  {
    var full: seq<int> := [1, 1, 1, 1];
    var half: seq<int> := [1, 1, 0, 0];
    var mask: seq<seq<int>> := [full, half];
    FlattenTwo(full, half);
    CountAppend(full, half);
    CountOnesThenZeros(full, 4);
    CountOnesThenZeros(half, 2);
    var fullPred, halfPred := PredMaskRow(full), PredMaskRow(half);
    assert fullPred == [1, 1, 1];
    assert halfPred == [1, 1, 0];
    assert PredMask(mask) == [fullPred, halfPred];
    FlattenTwo(fullPred, halfPred);
    CountAppend(fullPred, halfPred);
    CountOnesThenZeros(fullPred, 3);
    CountOnesThenZeros(halfPred, 2);
    ShiftedCountsAgree(mask);
  }
}

=== FILE: next_q.dfy ===
/** Next-state Q values for the inverse-Q critic (Trainer.train_iteration):
    every batch row of `q_preds` (B x T x A) is shifted one step to the left
    and a zero vector stands in for the value after the final step. */
module NextQ {

  /** `torch.zeros([act_dim])` */
  function Zeros(n: nat): (r: seq<real>)
    ensures |r| == n
    ensures forall j :: 0 <= j < n ==> r[j] == 0.0
  {
    seq(n, j => 0.0)
  }

  /** `q[1:] ++ [zeros(act_dim)]` for one batch row. */
  function ShiftRow(row: seq<seq<real>>, actDim: nat): (r: seq<seq<real>>)
    ensures |r| == if |row| == 0 then 1 else |row|
    ensures forall t :: 0 <= t < |row| - 1 ==> r[t] == row[t + 1]
    ensures r[|r| - 1] == Zeros(actDim)
  {
    (if |row| == 0 then [] else row[1..]) + [Zeros(actDim)]
  }

  /** `torch.cat((q_preds[:, 1:, :], zeros(B, 1, act_dim)), dim=1)` */
  function NextQValues(q: seq<seq<seq<real>>>, actDim: nat): (r: seq<seq<seq<real>>>)
    ensures |r| == |q|
  {
    seq(|q|, b requires 0 <= b < |q| => ShiftRow(q[b], actDim))
  }

  /** A B x T x A tensor. */
  predicate IsGrid(q: seq<seq<seq<real>>>, t: nat, a: nat) {
    forall b :: 0 <= b < |q| ==> |q[b]| == t && forall s :: 0 <= s < t ==> |q[b][s]| == a
  }

  /** For T >= 1 the next-Q tensor has the shape of `q_preds`; entry t holds
      the prediction for step t+1, and the final step holds zeros. */
  lemma NextQShape(q: seq<seq<seq<real>>>, t: nat, a: nat)
    requires t >= 1 && IsGrid(q, t, a)
    ensures IsGrid(NextQValues(q, a), t, a)
    ensures forall b, s :: 0 <= b < |q| && 0 <= s < t - 1 ==> NextQValues(q, a)[b][s] == q[b][s + 1]
    ensures forall b :: 0 <= b < |q| ==> NextQValues(q, a)[b][t - 1] == Zeros(a)
  {
    forall b | 0 <= b < |q|
      ensures |NextQValues(q, a)[b]| == t
      ensures forall s :: 0 <= s < t ==> |NextQValues(q, a)[b][s]| == a
    {
      var row := NextQValues(q, a)[b];
      assert row == ShiftRow(q[b], a);
      forall s | 0 <= s < t
        ensures |row[s]| == a
      {
        if s < t - 1 {
          assert row[s] == q[b][s + 1];
        }
      }
    }
  }
}

=== FILE: options.dfy ===
/** Presence and failure wrappers used throughout the model.
    `Option` stands for a Python value that may be `None`; `Result` stands for
    an operation that may raise instead of returning. */
module Options {

  datatype Option<+T> = None | Some(value: T)

  datatype Result<+T, +E> = Success(value: T) | Failure(error: E) {

    predicate IsFailure() {
      Failure?
    }

    function PropagateFailure<U>(): Result<U, E>
      requires Failure?
    {
      Failure(error)
    }

    function Extract(): T
      requires Success?
    {
      value
    }
  }

  /** Runs `step` on every element in order and stops at the first failure,
      the way a Python loop stops at the first exception. */
  function MapUntilFailure<A, B, E>(step: A -> Result<B, E>, xs: seq<A>): (r: Result<seq<B>, E>)
    ensures r.Success? ==> |r.value| == |xs|
    ensures r.Success? ==> forall i :: 0 <= i < |xs| ==> step(xs[i]) == Success(r.value[i])
    ensures r.Failure? <==> exists i :: 0 <= i < |xs| && step(xs[i]).Failure?
  {
    if |xs| == 0 then Success([])
    else
      var front := xs[..|xs| - 1];
      assert forall i :: 0 <= i < |front| ==> front[i] == xs[i];
      var init :- MapUntilFailure(step, front);
      var last :- step(xs[|xs| - 1]);
      Success(init + [last])
  }
}

=== FILE: padding.dfy ===
/** Chunk padding used by the option-based policy methods before a batch is
    reshaped into chunks of K time steps (Trainer.train_iteration and the
    validation fallback of Trainer.evaluate). The padding routine itself is an
    external utility; only the target length and the "padded entries are
    masked out" contract are modelled here. */
module Padding {
  import opened Options
  import opened Arith

  /** The policy method, as named in the model's configuration. */
  datatype Method = VanillaMethod | OptionMethod | TrajOptionMethod

  /** Only the two option methods pad their batches. */
  predicate PadsToChunks(m: Method) {
    m == OptionMethod || m == TrajOptionMethod
  }

  /** Length every per-timestep field is padded to: `(L // K + 1) * K`. */
  function PaddedLength(l: nat, k: nat): (r: nat)
    requires k > 0
    ensures r % k == 0
    ensures l < r <= l + k
  {
    var q := l / k;
    assert (q + 1) * k == q * k + k;
    DivModUnique((q + 1) * k, k, q + 1, 0);
    (q + 1) * k
  }

  /** The padded length is the least multiple of K strictly above L. */
  lemma PaddedLengthIsLeastMultipleAbove(l: nat, k: nat, m: nat)
    requires k > 0
    requires m % k == 0 && m > l
    ensures PaddedLength(l, k) <= m
  {
    var q := l / k;
    var p := m / k;
    assert m == p * k;
    if p <= q {
      assert (q - p) * k == q * k - p * k;
      if p < q {
        MulAtLeast(q - p, k);
      }
      assert false;
    }
    assert (p - (q + 1)) * k == p * k - (q + 1) * k;
    if p > q + 1 {
      MulAtLeast(p - (q + 1), k);
    }
  }

  /** A whole extra chunk is added even when K already divides L. */
  lemma PaddedLengthAddsFullChunkWhenDivisible(l: nat, k: nat)
    requires k > 0
    requires l % k == 0
    ensures PaddedLength(l, k) == l + k
  {
    var q := l / k;
    assert l == q * k;
    assert (q + 1) * k == q * k + k;
  }

  /** `L // K` with `K == 0` raises `ZeroDivisionError`. */
  datatype PaddingError = ZeroChunkSize

  /** Sequence length after the optional padding step. */
  function SequenceLength(m: Method, l: nat, k: nat): (r: Result<nat, PaddingError>)
    ensures r.Failure? <==> PadsToChunks(m) && k == 0
    ensures !PadsToChunks(m) ==> r == Success(l)
    ensures PadsToChunks(m) && r.Success? ==> r.value % k == 0 && l < r.value <= l + k
  {
    if !PadsToChunks(m) then Success(l)
    else if k == 0 then Failure(ZeroChunkSize)
    else Success(PaddedLength(l, k))
  }

  /** `padded` is `orig` extended at the end to length `n` with arbitrary values. */
  ghost predicate IsPaddingOf<T>(padded: seq<T>, orig: seq<T>, n: nat) {
    |orig| <= n && |padded| == n && padded[..|orig|] == orig
  }

  /** A padded mask row: the original row followed by zeros (the padding
      utility's contract, taken as given). */
  ghost predicate IsMaskPaddingOf(padded: seq<int>, orig: seq<int>, n: nat) {
    IsPaddingOf(padded, orig, n) && forall t :: |orig| <= t < n ==> padded[t] == 0
  }

  /** Every row of `padded` pads the matching row of `orig` to length `n`. */
  ghost predicate IsBatchPaddingOf<T>(padded: seq<seq<T>>, orig: seq<seq<T>>, n: nat) {
    |padded| == |orig| && forall b :: 0 <= b < |orig| ==> IsPaddingOf(padded[b], orig[b], n)
  }

  ghost predicate IsMaskBatchPaddingOf(padded: seq<seq<int>>, orig: seq<seq<int>>, n: nat) {
    |padded| == |orig| && forall b :: 0 <= b < |orig| ==> IsMaskPaddingOf(padded[b], orig[b], n)
  }
}

=== FILE: training.dfy ===
/** One batch of Trainer.train_iteration after the forward pass, and the
    matching part of the validation fallback in Trainer.evaluate: mask the
    predictions and targets, build the next-Q tensor, bind the arguments of
    `imitation_loss` as each call site passes them, and compose the loss. */
module Training {
  import opened Options
  import opened Padding
  import opened Arith
  import opened Masking
  import opened NextQ
  import opened Losses

  /** Cloned action targets: class indices (B x T) for a discrete action
      space, vectors (B x T x A) for a continuous one. */
  datatype Targets = IndexTargets(labels: seq<seq<int>>) | VectorTargets(vectors: seq<seq<seq<real>>>)

  /** The (already padded) batch fields and the forward pass's predictions. */
  datatype StepInput = StepInput(
    mask: seq<seq<int>>,                // B x T attention mask
    actionPreds: seq<seq<seq<real>>>,   // B x T x A
    actionTargets: Targets,
    statePreds: seq<seq<seq<real>>>,    // B x (T-1) x S: predictions of s_1 .. s_{T-1}
    stateTargets: seq<seq<seq<real>>>,  // B x T x S
    dones: seq<seq<int>>,               // B x T
    qPreds: seq<seq<seq<real>>>,        // B x T x A, read only when the model predicts Q
    actDim: nat,                        // action_preds.shape[-1]
    stateDim: nat)                      // state_preds.shape[-1]

  /** Per-run switches: `discrete`, `state_il`, `predict_q`, the model's
      `iq_critic_loss` (if any) and the iteration number passed as `step`. */
  datatype StepConfig = StepConfig(discrete: bool, stateIl: bool, iq: bool, lossFn: Option<CriticFn>, step: int)

  /** `iq_choose_action` followed (for a discrete space) by `one_hot`: foreign. */
  datatype Policy = Policy(chooseAction: seq<seq<real>> -> seq<seq<real>>)

  datatype StepError =
    | Shape(shape: ShapeError)
    | NextQShapeMismatch
    | Binding(bind: BindError)
    | RcUnpackNone      // unpacking a reconstruction output that is `None`
    | LangEntropyNone   // `.mean()` on a missing language entropy

  /** The model output envelope apart from the decision-transformer
      predictions. The reconstruction outputs are pairs of predictions and
      targets, each possibly `None`; the output as a whole may be `None`
      too, and then unpacking it raises. */
  datatype Envelope = Envelope(
    optionsLoss: Option<Tensor>,
    stateRc: Option<(Option<Tensor>, Option<Tensor>)>,
    langRc: Option<(Option<Tensor>, Option<Tensor>)>,
    commitment: Option<Tensor>,
    entropy: Option<(Option<Tensor>, Option<Tensor>)>)

  function Filter<T>(b: seq<seq<T>>, mask: seq<seq<int>>): (r: Result<seq<T>, StepError>)
    ensures r.Success? <==> |Flatten(b)| == |Flatten(mask)|
    ensures r.Success? ==> r.value == Select(Flatten(b), Flatten(mask))
    ensures r.Failure? ==> r.error == Shape(ShapeMismatch(|Flatten(b)|, |Flatten(mask)|))
  {
    match FilterRows(b, mask)
    case Success(rows) => Success(rows)
    case Failure(e) => Failure(Shape(e))
  }

  /** `xs[mask.reshape(-1) > 0]` for an already flat `xs`. */
  function FilterFlat<T>(xs: seq<T>, mask: seq<seq<int>>): (r: Result<seq<T>, StepError>)
    ensures r.Success? <==> |xs| == |Flatten(mask)|
    ensures r.Success? ==> r.value == Select(xs, Flatten(mask))
    ensures r.Failure? ==> r.error == Shape(ShapeMismatch(|xs|, |Flatten(mask)|))
  {
    if |xs| == |Flatten(mask)| then Success(Select(xs, Flatten(mask)))
    else Failure(Shape(ShapeMismatch(|xs|, |Flatten(mask)|)))
  }

  /** `x.reshape(-1, w)[mask.reshape(-1) > 0]` for a B x T x d tensor: the
      scalars are cut into rows of width `w`, whatever `d` is, and then
      masked. */
  function FilterWide(b: seq<seq<seq<real>>>, w: nat, mask: seq<seq<int>>): (r: Result<seq<seq<real>>, StepError>)
    ensures r.Success? <==>
      Reshape(Flatten(Flatten(b)), w).Success? && |Reshape(Flatten(Flatten(b)), w).value| == |Flatten(mask)|
    ensures r.Success? ==> r.value == Select(Reshape(Flatten(Flatten(b)), w).value, Flatten(mask))
  {
    match Reshape(Flatten(Flatten(b)), w)
    case Failure(e) => Failure(Shape(e))
    case Success(rows) => FilterFlat(rows, mask)
  }

  /** When every vector already has width `w`, the reshape is the identity
      and the filter is the plain batch filter. */
  lemma FilterWideOfWidth(b: seq<seq<seq<real>>>, w: nat, mask: seq<seq<int>>)
    requires w > 0 && VectorsOfLength(b, w)
    ensures FilterWide(b, w, mask) == Filter(b, mask)
  {
    FlattenKeepsWidth(b, w);
    ReshapeOfFlatten(Flatten(b), w);
  }

  /** `.long()` of a float: truncation toward zero. */
  function Truncate(x: real): (r: int)
    ensures 0.0 <= x ==> r as real <= x < r as real + 1.0
    ensures x < 0.0 ==> r as real - 1.0 < x <= r as real
  {
    if x >= 0.0 then x.Floor else -((-x).Floor)
  }

  /** `action_target.long().reshape(-1)`: the targets as one run of class indices. */
  function IndexScalars(t: Targets): (r: seq<int>)
    ensures t.IndexTargets? ==> r == Flatten(t.labels)
    ensures t.VectorTargets? ==> |r| == |Flatten(Flatten(t.vectors))|
  {
    match t
    case IndexTargets(l) => Flatten(l)
    case VectorTargets(v) =>
      var xs := Flatten(Flatten(v));
      seq(|xs|, i requires 0 <= i < |xs| => Truncate(xs[i]))
  }

  /** `action_target.float()` flattened: the targets as one run of scalars. */
  function RealScalars(t: Targets): (r: seq<real>)
    ensures t.VectorTargets? ==> r == Flatten(Flatten(t.vectors))
    ensures t.IndexTargets? ==> |r| == |Flatten(t.labels)|
  {
    match t
    case IndexTargets(l) =>
      var xs := Flatten(l);
      seq(|xs|, i requires 0 <= i < |xs| => xs[i] as real)
    case VectorTargets(v) => Flatten(Flatten(v))
  }

  /** Masked action targets. The `discrete` flag, not the shape of the
      targets, picks the reshape: `reshape(-1)` of the integer targets, or
      `reshape(-1, act_dim)` of the float targets; either raises when the
      element count does not fit the mask. */
  function FilterTargets(discrete: bool, t: Targets, mask: seq<seq<int>>, actDim: nat): (r: Result<Value, StepError>)
    ensures discrete ==> (r.Success? <==> |IndexScalars(t)| == |Flatten(mask)|)
    ensures discrete && r.Success? ==> r.value == TensorV(Labels(Select(IndexScalars(t), Flatten(mask))))
    ensures !discrete ==> (r.Success? <==>
      Reshape(RealScalars(t), actDim).Success? && |Reshape(RealScalars(t), actDim).value| == |Flatten(mask)|)
    ensures !discrete && r.Success? ==>
      r.value == TensorV(Rows(Select(Reshape(RealScalars(t), actDim).value, Flatten(mask))))
    ensures r.Success? ==> r.value.TensorV? && Len(r.value.t) == Count(Flatten(mask))
  {
    if discrete then
      var labels :- FilterFlat(IndexScalars(t), mask);
      Success(TensorV(Labels(labels)))
    else
      match Reshape(RealScalars(t), actDim)
      case Failure(e) => Failure(Shape(e))
      case Success(rows) =>
        var kept :- FilterFlat(rows, mask);
        Success(TensorV(Rows(kept)))
  }

  /** Targets of the kind the flag expects (indices for a discrete space,
      vectors of width `act_dim` otherwise) are masked exactly like the
      predictions: entry by entry, as batch-major B x T tensors. */
  lemma FilterTargetsOfMatchingKind(discrete: bool, t: Targets, mask: seq<seq<int>>, actDim: nat)
    requires discrete <==> t.IndexTargets?
    requires t.VectorTargets? ==> actDim > 0 && VectorsOfLength(t.vectors, actDim)
    ensures t.IndexTargets? ==>
      (FilterTargets(discrete, t, mask, actDim).Success? <==> Filter(t.labels, mask).Success?)
    ensures t.IndexTargets? && Filter(t.labels, mask).Success? ==>
      FilterTargets(discrete, t, mask, actDim) == Success(TensorV(Labels(Filter(t.labels, mask).value)))
    ensures t.VectorTargets? ==>
      (FilterTargets(discrete, t, mask, actDim).Success? <==> Filter(t.vectors, mask).Success?)
    ensures t.VectorTargets? && Filter(t.vectors, mask).Success? ==>
      FilterTargets(discrete, t, mask, actDim) == Success(TensorV(Rows(Filter(t.vectors, mask).value)))
  {
    if t.VectorTargets? {
      FlattenKeepsWidth(t.vectors, actDim);
      ReshapeOfFlatten(Flatten(t.vectors), actDim);
    }
  }

  /** A discrete run handed float vectors of width two: `reshape(-1)` keeps
      both entries per step and the boolean index of one step rejects them. */
  lemma DiscreteRunRejectsVectorTargets()
    ensures FilterTargets(true, VectorTargets([[[1.0, 0.0]]]), [[1]], 2).Failure?
  {
    var v: seq<seq<seq<real>>> := [[[1.0, 0.0]]];
    assert Flatten(v) == [[1.0, 0.0]] by {
      assert Flatten(v) == Flatten(v[..0]) + v[0];
    }
    assert Flatten(Flatten(v)) == [1.0, 0.0] by {
      var f := Flatten(v);
      assert Flatten(f) == Flatten(f[..0]) + f[0];
    }
    var mask: seq<seq<int>> := [[1]];
    assert Flatten(mask) == Flatten(mask[..0]) + mask[0];
  }

  /** Every Q vector has `a` entries, as `torch.cat` with `zeros(B, 1, act_dim)` needs. */
  predicate VectorsOfLength(q: seq<seq<seq<real>>>, a: nat) {
    forall b, s :: 0 <= b < |q| && 0 <= s < |q[b]| ==> |q[b][s]| == a
  }

  /** The state targets cut into rows of width `state_dim`. */
  function StateTargetRows(input: StepInput): Result<seq<seq<real>>, ShapeError> {
    Reshape(Flatten(Flatten(input.stateTargets)), input.stateDim)
  }

  /** The masked state arguments when `state_il` is set: the predictions
      under the prediction mask, and the targets, reshaped to the width of
      the predictions, under the target mask; otherwise `None, None`. */
  function StateArgs(cfg: StepConfig, input: StepInput): (r: Result<seq<Value>, StepError>)
    ensures !cfg.stateIl ==> r == Success([NoneV, NoneV])
    ensures cfg.stateIl ==> (r.Success? <==>
      && |Flatten(input.statePreds)| == |Flatten(PredMask(input.mask))|
      && StateTargetRows(input).Success?
      && |StateTargetRows(input).value| == |Flatten(TargetMask(input.mask))|)
    ensures cfg.stateIl && r.Success? ==> r.value == [
      TensorV(Rows(Select(Flatten(input.statePreds), Flatten(PredMask(input.mask))))),
      TensorV(Rows(Select(StateTargetRows(input).value, Flatten(TargetMask(input.mask)))))]
  {
    if cfg.stateIl then
      var statePreds :- Filter(input.statePreds, PredMask(input.mask));
      var stateTargets :- FilterWide(input.stateTargets, input.stateDim, TargetMask(input.mask));
      Success([TensorV(Rows(statePreds)), TensorV(Rows(stateTargets))])
    else Success([NoneV, NoneV])
  }

  /** State targets twice as wide as the state predictions: the reshape to
      `state_dim` doubles the rows, which then outnumber the mask. */
  lemma WideStateTargetsRejected()
    ensures var input := StepInput([[1, 1]], [[[0.0], [0.0]]], IndexTargets([[0, 0]]), [[[0.5]]],
                                   [[[1.0, 0.0], [0.0, 1.0]]], [[0, 0]], [], 1, 1);
      && StateArgs(StepConfig(true, true, false, None, 0), input).Failure?
      && FilterRows(input.stateTargets, TargetMask(input.mask)).Success?
  {
    var t: seq<seq<seq<real>>> := [[[1.0, 0.0], [0.0, 1.0]]];
    assert Flatten(t) == [[1.0, 0.0], [0.0, 1.0]] by {
      assert Flatten(t) == Flatten(t[..0]) + t[0];
    }
    var f := Flatten(t);
    assert Flatten(f) == [1.0, 0.0, 0.0, 1.0] by {
      assert Flatten(f) == Flatten(f[..1]) + f[1];
      assert Flatten(f[..1]) == Flatten(f[..0]) + f[0];
    }
    var tm := TargetMask([[1, 1]]);
    assert TargetMaskRow([1, 1]) == [0, 1] by {
      assert DropLast([1, 1]) == [1];
    }
    assert tm == [[0, 1]];
    assert Flatten(tm) == [0, 1] by {
      assert Flatten(tm) == Flatten(tm[..0]) + tm[0];
    }
    var input := StepInput([[1, 1]], [[[0.0], [0.0]]], IndexTargets([[0, 0]]), [[[0.5]]], t, [[0, 0]], [], 1, 1);
    var rows := Reshape(Flatten(f), 1);
    assert rows.Success? && |rows.value| == 4;
    assert StateTargetRows(input) == rows;
    assert |Flatten(TargetMask(input.mask))| == 2;
  }

  /** The action, Q and next-Q arguments. Without `predict_q` they are the
      masked action predictions and `None, None`. With it, `torch.cat`
      needs `q_preds` to have the batch size and last dimension of the
      action predictions; the Q values are masked like the actions, the
      policy's choice on them replaces the action predictions, and next-Q
      is the shifted, unmasked Q tensor. */
  function QArgs(cfg: StepConfig, input: StepInput, policy: Policy, actionPreds: seq<seq<real>>): (r: Result<(Value, Value, Value), StepError>)
    ensures !cfg.iq ==> r == Success((TensorV(Rows(actionPreds)), NoneV, NoneV))
    ensures cfg.iq ==> (r.Success? <==>
      |input.qPreds| == |input.actionPreds| && VectorsOfLength(input.qPreds, input.actDim)
      && |Flatten(input.qPreds)| == |Flatten(input.mask)|)
    ensures cfg.iq && r.Success? ==>
      var q := Select(Flatten(input.qPreds), Flatten(input.mask));
      r.value == (TensorV(Rows(policy.chooseAction(q))), TensorV(Rows(q)), TensorV(Grid(NextQValues(input.qPreds, input.actDim))))
    ensures r.Failure? ==> cfg.iq && (r.error.NextQShapeMismatch? || r.error.Shape?)
  {
    if !cfg.iq then Success((TensorV(Rows(actionPreds)), NoneV, NoneV))
    else if |input.qPreds| != |input.actionPreds| || !VectorsOfLength(input.qPreds, input.actDim) then
      Failure(NextQShapeMismatch)
    else
      var nextQ := NextQValues(input.qPreds, input.actDim);
      var q :- Filter(input.qPreds, input.mask);
      Success((TensorV(Rows(policy.chooseAction(q))), TensorV(Rows(q)), TensorV(Grid(nextQ))))
  }

  /** The arguments the training loop passes to `imitation_loss` for one
      batch, filtered in the order the loop filters them. Every call passes
      eight positional arguments, so binding never fails: only a shape
      error can. */
  function TrainParams(cfg: StepConfig, input: StepInput, policy: Policy): (r: Result<Params, StepError>)
    ensures r.Failure? ==> r.error.Shape? || r.error.NextQShapeMismatch?
    ensures r.Failure? && r.error.NextQShapeMismatch? ==> cfg.iq
    ensures r.Success? ==> r.value.discrete == BoolV(cfg.discrete) && r.value.lossFn == cfg.lossFn && r.value.step == cfg.step
  {
    var actionPreds :- Filter(input.actionPreds, input.mask);
    var targets :- FilterTargets(cfg.discrete, input.actionTargets, input.mask, input.actDim);
    var stateArgs :- StateArgs(cfg, input);
    var dones :- Filter(input.dones, input.mask);
    var head :- QArgs(cfg, input, policy, actionPreds);
    var pos := [head.0, targets] + stateArgs + [head.1, head.2, TensorV(Labels(dones)), BoolV(cfg.discrete)];
    BindEight(pos, cfg);
    BindParams(pos, cfg)
  }

  function BindParams(pos: seq<Value>, cfg: StepConfig): Result<Params, StepError> {
    match BindImitation(pos, cfg.lossFn, cfg.step)
    case Success(p) => Success(p)
    case Failure(e) => Failure(Binding(e))
  }

  /** Eight positional arguments fill the eight positional parameters in order. */
  lemma BindEight(pos: seq<Value>, cfg: StepConfig)
    requires |pos| == PositionalSlots
    ensures BindParams(pos, cfg) == Success(Params(pos[0], pos[1], pos[2], pos[3], pos[4], pos[5], pos[6], pos[7], cfg.lossFn, cfg.step))
  {
    var p := BindImitation(pos, cfg.lossFn, cfg.step).value;
    assert Slot(p, 2) == pos[2] && Slot(p, 3) == pos[3] && Slot(p, 4) == pos[4];
    assert Slot(p, 5) == pos[5] && Slot(p, 6) == pos[6] && Slot(p, 7) == pos[7];
    assert Slot(p, 0) == pos[0] && Slot(p, 1) == pos[1];
  }

  /** Training-side argument values: every tensor is its field flattened to
      B*T entries (state predictions B*(T-1)) and filtered by the positive
      entries of the matching mask, in order; with `predict_q` the action
      argument is the policy's choice on the masked Q values and next-Q is
      the shifted Q tensor; each value lands in the parameter the call site
      intends. */
  lemma TrainParamsValues(cfg: StepConfig, input: StepInput, policy: Policy)
    requires TrainParams(cfg, input, policy).Success?
    ensures |Flatten(input.actionPreds)| == |Flatten(input.mask)| && |Flatten(input.dones)| == |Flatten(input.mask)|
    ensures FilterTargets(cfg.discrete, input.actionTargets, input.mask, input.actDim).Success?
    ensures cfg.stateIl ==>
      && |Flatten(input.statePreds)| == |Flatten(PredMask(input.mask))|
      && StateTargetRows(input).Success?
      && |StateTargetRows(input).value| == |Flatten(TargetMask(input.mask))|
    ensures cfg.iq ==>
      |input.qPreds| == |input.actionPreds| && VectorsOfLength(input.qPreds, input.actDim)
      && |Flatten(input.qPreds)| == |Flatten(input.mask)|
    ensures var p, m := TrainParams(cfg, input, policy).value, Flatten(input.mask);
      && p.actionTargets == FilterTargets(cfg.discrete, input.actionTargets, input.mask, input.actDim).value
      && p.dones == TensorV(Labels(Select(Flatten(input.dones), m)))
      && p.discrete == BoolV(cfg.discrete) && p.lossFn == cfg.lossFn && p.step == cfg.step
    ensures var p := TrainParams(cfg, input, policy).value;
      && (cfg.stateIl ==>
            p.statePreds == TensorV(Rows(Select(Flatten(input.statePreds), Flatten(PredMask(input.mask)))))
            && p.stateTargets == TensorV(Rows(Select(StateTargetRows(input).value, Flatten(TargetMask(input.mask))))))
      && (!cfg.stateIl ==> p.statePreds == NoneV && p.stateTargets == NoneV)
    ensures var p, m := TrainParams(cfg, input, policy).value, Flatten(input.mask);
      && (cfg.iq ==>
            p.qPreds == TensorV(Rows(Select(Flatten(input.qPreds), m)))
            && p.actionPreds == TensorV(Rows(policy.chooseAction(Select(Flatten(input.qPreds), m))))
            && p.nextQ == TensorV(Grid(NextQValues(input.qPreds, input.actDim))))
      && (!cfg.iq ==>
            p.actionPreds == TensorV(Rows(Select(Flatten(input.actionPreds), m)))
            && p.qPreds == NoneV && p.nextQ == NoneV)
  {
    var ap := Filter(input.actionPreds, input.mask);
    var tg := FilterTargets(cfg.discrete, input.actionTargets, input.mask, input.actDim);
    var sa := StateArgs(cfg, input);
    var dn := Filter(input.dones, input.mask);
    assert ap.Success? && tg.Success? && sa.Success? && dn.Success?;
    var head := QArgs(cfg, input, policy, ap.value);
    assert head.Success?;
    var pos := [head.value.0, tg.value] + sa.value
      + [head.value.1, head.value.2, TensorV(Labels(dn.value)), BoolV(cfg.discrete)];
    BindEight(pos, cfg);
    assert TrainParams(cfg, input, policy) == BindParams(pos, cfg);
  }

  /** Training-side masking: actions, action targets and dones are filtered
      by the same mask and all keep one row per positive mask entry; the
      shifted state masks give equally many predictions and targets; each
      argument lands in the parameter the call site intends. */
  lemma TrainParamsShapes(cfg: StepConfig, input: StepInput, policy: Policy)
    requires TrainParams(cfg, input, policy).Success?
    ensures var p := TrainParams(cfg, input, policy).value;
      var n := Count(Flatten(input.mask));
      && p.actionTargets.TensorV? && Len(p.actionTargets.t) == n
      && p.dones.TensorV? && Len(p.dones.t) == n
      && (!cfg.iq ==> p.actionPreds.TensorV? && Len(p.actionPreds.t) == n)
      && (cfg.iq ==> p.qPreds.TensorV? && Len(p.qPreds.t) == n && p.nextQ.TensorV? && Len(p.nextQ.t) == |input.qPreds|)
      && (!cfg.iq ==> p.qPreds == NoneV && p.nextQ == NoneV)
      && (cfg.stateIl ==> p.statePreds.TensorV? && p.stateTargets.TensorV? && Len(p.statePreds.t) == Len(p.stateTargets.t))
      && (!cfg.stateIl ==> p.statePreds == NoneV && p.stateTargets == NoneV)
      && p.discrete == BoolV(cfg.discrete) && p.lossFn == cfg.lossFn && p.step == cfg.step
  {
    TrainParamsValues(cfg, input, policy);
    ShiftedCountsAgree(input.mask);
  }

  /** Training-side loss selection: the critic runs exactly when the model
      predicts Q values and has a critic; otherwise cross-entropy for a
      discrete action space and MSE for a continuous one. The state loss
      is computed exactly when `state_il` is set. */
  lemma TrainLossSelection(cfg: StepConfig, input: StepInput, policy: Policy)
    requires TrainParams(cfg, input, policy).Success?
    ensures var r := ImitationLoss(TrainParams(cfg, input, policy).value);
      && r.Success?
      && (r.value.0.CriticLoss? <==> cfg.iq && cfg.lossFn.Some?)
      && (r.value.0.CrossEntropy? <==> !(cfg.iq && cfg.lossFn.Some?) && cfg.discrete)
      && (r.value.0.MeanSquared? <==> !(cfg.iq && cfg.lossFn.Some?) && !cfg.discrete)
      && (r.value.1.StateMse? <==> cfg.stateIl)
  {
    TrainParamsShapes(cfg, input, policy);
  }

  /** A batch every field of which is a B x T tensor (state predictions
      B x (T-1)), with T >= 1, whose `act_dim` and `state_dim` are the
      widths of the action and state predictions, and whose targets are of
      the kind the `discrete` flag expects: class indices, or vectors of
      width `act_dim`. */
  predicate WellShaped(cfg: StepConfig, input: StepInput, t: nat) {
    var b := |input.mask|;
    && t >= 1
    && (forall i :: 0 <= i < b ==> |input.mask[i]| == t)
    && RowsAgree(input.actionPreds, input.mask) && VectorsOfLength(input.actionPreds, input.actDim)
    && (match input.actionTargets
        case IndexTargets(l) => cfg.discrete && RowsAgree(l, input.mask)
        case VectorTargets(v) =>
          !cfg.discrete && RowsAgree(v, input.mask) && input.actDim > 0 && VectorsOfLength(v, input.actDim))
    && RowsAgree(input.dones, input.mask)
    && (cfg.stateIl ==>
          && RowsAgree(input.statePreds, PredMask(input.mask)) && RowsAgree(input.stateTargets, TargetMask(input.mask))
          && input.stateDim > 0 && VectorsOfLength(input.statePreds, input.stateDim)
          && VectorsOfLength(input.stateTargets, input.stateDim))
    && (cfg.iq ==> RowsAgree(input.qPreds, input.mask) && VectorsOfLength(input.qPreds, input.actDim))
  }

  /** A well-shaped batch never hits a shape error in the training step. */
  lemma TrainParamsSucceed(cfg: StepConfig, input: StepInput, policy: Policy, t: nat)
    requires WellShaped(cfg, input, t)
    ensures TrainParams(cfg, input, policy).Success?
  {
    FlattenRowsAgree(input.actionPreds, input.mask);
    assert Filter(input.actionPreds, input.mask).Success?;
    match input.actionTargets {
      case IndexTargets(l) => FlattenRowsAgree(l, input.mask);
      case VectorTargets(v) => FlattenRowsAgree(v, input.mask);
    }
    FilterTargetsOfMatchingKind(cfg.discrete, input.actionTargets, input.mask, input.actDim);
    assert FilterTargets(cfg.discrete, input.actionTargets, input.mask, input.actDim).Success?;
    FlattenRowsAgree(input.dones, input.mask);
    assert Filter(input.dones, input.mask).Success?;
    if cfg.stateIl {
      FlattenRowsAgree(input.statePreds, PredMask(input.mask));
      FlattenRowsAgree(input.stateTargets, TargetMask(input.mask));
      FilterWideOfWidth(input.stateTargets, input.stateDim, TargetMask(input.mask));
      assert Filter(input.statePreds, PredMask(input.mask)).Success?;
      assert FilterWide(input.stateTargets, input.stateDim, TargetMask(input.mask)).Success?;
    }
    if cfg.iq {
      FlattenRowsAgree(input.qPreds, input.mask);
      assert |input.qPreds| == |input.actionPreds|;
      assert Filter(input.qPreds, input.mask).Success?;
    }
  }

  /** Policy and language entropies for the metrics. Both are zero when
      the entropy output, or its first component, is absent; a present
      policy entropy next to an absent language entropy raises on `.mean()`. */
  function Entropies(out: Envelope, num: Numerics): (r: Option<(real, real)>)
    ensures r.None? <==> out.entropy.Some? && out.entropy.value.0.Some? && out.entropy.value.1.None?
    ensures out.entropy.None? || out.entropy.value.0.None? ==> r == Some((0.0, 0.0))
    ensures r.Some? && out.entropy.Some? && out.entropy.value.0.Some? ==>
      out.entropy.value.1.Some?
      && r.value == (num.mean(out.entropy.value.0.value), num.mean(out.entropy.value.1.value))
  {
    match out.entropy
    case None => Some((0.0, 0.0))
    case Some((None, _)) => Some((0.0, 0.0))
    case Some((Some(e), None)) => None
    case Some((Some(e), Some(l))) => Some((num.mean(e), num.mean(l)))
  }

  /** `state_rc_preds, state_rc_targets = outputs['state_rc']` and the same
      for `lang_rc`: both outputs unpack as pairs. */
  predicate Unpacks(out: Envelope) {
    out.stateRc.Some? && out.langRc.Some?
  }

  /** The six loss terms of one training batch: each present head's mean or
      MSE, and exact zero for each absent one. */
  function TrainTerms(il: (ActLoss, StateLoss), out: Envelope, num: Numerics): (t: LossTerms)
    requires Unpacks(out)
    ensures t.act == ActValue(il.0, num)
    ensures il.1.NoStateLoss? ==> t.state == 0.0
    ensures il.1.StateMse? ==> t.state == num.mse(il.1.preds, il.1.targets)
    ensures out.optionsLoss.None? ==> t.options == 0.0
    ensures out.optionsLoss.Some? ==> t.options == num.mean(out.optionsLoss.value)
    ensures out.commitment.None? ==> t.commitment == 0.0
    ensures out.commitment.Some? ==> t.commitment == num.mean(out.commitment.value)
    ensures var (p, q) := out.stateRc.value;
      && (p.None? || q.None? ==> t.stateRc == 0.0)
      && (p.Some? && q.Some? ==> t.stateRc == num.mse(TensorV(p.value), TensorV(q.value)))
    ensures var (p, q) := out.langRc.value;
      && (p.None? || q.None? ==> t.langRc == 0.0)
      && (p.Some? && q.Some? ==> t.langRc == num.mse(TensorV(p.value), TensorV(q.value)))
  {
    LossTerms(
      ActValue(il.0, num),
      StateValue(il.1, num),
      ScalarOrZero(out.optionsLoss, num),
      RcValue(ReconstructionLoss(out.stateRc.value.0, out.stateRc.value.1), num),
      RcValue(ReconstructionLoss(out.langRc.value.0, out.langRc.value.1), num),
      ScalarOrZero(out.commitment, num))
  }

  /** The loss of one training batch (the value `backward` is called on):
      the sum of the action, state, option, state-reconstruction,
      language-reconstruction and commitment losses. The reconstruction
      outputs are unpacked and the entropies averaged before any tensor is
      masked, so those failures come first, in that order. */
  function TrainStepLoss(cfg: StepConfig, input: StepInput, out: Envelope, num: Numerics, policy: Policy): (r: Result<real, StepError>)
    ensures r.Success? <==> Unpacks(out) && Entropies(out, num).Some? && TrainParams(cfg, input, policy).Success?
    ensures !Unpacks(out) ==> r == Failure(RcUnpackNone)
    ensures Unpacks(out) && Entropies(out, num).None? ==> r == Failure(LangEntropyNone)
    ensures Unpacks(out) && Entropies(out, num).Some? && r.Failure? ==> r.error == TrainParams(cfg, input, policy).error
    ensures r.Success? ==>
      var il := ImitationLoss(TrainParams(cfg, input, policy).value).value;
      r.value == ActValue(il.0, num) + StateValue(il.1, num) + ScalarOrZero(out.optionsLoss, num)
        + RcValue(ReconstructionLoss(out.stateRc.value.0, out.stateRc.value.1), num)
        + RcValue(ReconstructionLoss(out.langRc.value.0, out.langRc.value.1), num)
        + ScalarOrZero(out.commitment, num)
  {
    var _ :- if !Unpacks(out) then Failure(RcUnpackNone) else Success(());
    var _ :- if Entropies(out, num).None? then Failure(LangEntropyNone) else Success(());
    var p :- TrainParams(cfg, input, policy);
    match ImitationLoss(p)
    case Success(il) => Success(TrainingTotal(TrainTerms(il, out, num)))
    case Failure(_) => assert false; Failure(NextQShapeMismatch)
  }

  /** An envelope in which every optional head is absent. */
  predicate NoOptionalHeads(out: Envelope) {
    && out.optionsLoss.None? && out.commitment.None? && out.entropy.None?
    && out.stateRc.Some? && out.stateRc.value.0.None? && out.langRc.Some? && out.langRc.value.0.None?
  }

  /** Zero defaults: with every optional head absent and state imitation off,
      the composite loss is exactly the action loss; with state imitation on
      it is the action loss plus the state loss. */
  lemma ZeroDefaults(cfg: StepConfig, input: StepInput, out: Envelope, num: Numerics, policy: Policy)
    requires TrainParams(cfg, input, policy).Success?
    requires NoOptionalHeads(out)
    ensures var il := ImitationLoss(TrainParams(cfg, input, policy).value).value;
      && TrainStepLoss(cfg, input, out, num, policy).Success?
      && TrainStepLoss(cfg, input, out, num, policy).value == ActValue(il.0, num) + StateValue(il.1, num)
      && (!cfg.stateIl ==> TrainStepLoss(cfg, input, out, num, policy).value == ActValue(il.0, num))
  {
    TrainLossSelection(cfg, input, policy);
    var il := ImitationLoss(TrainParams(cfg, input, policy).value).value;
    assert TrainStepLoss(cfg, input, out, num, policy) == Success(TrainingTotal(TrainTerms(il, out, num)));
  }

  /** The arguments the validation fallback passes to `imitation_loss`:
      `imitation_loss(action_preds, action_target, state_preds, state_target,
      discrete, loss_fn=..., step=...)`, or with `None, None` for the states.
      The state tensors are masked whether or not `state_il` is set. */
  function ValidationParams(cfg: StepConfig, input: StepInput): (r: Result<Params, StepError>)
    ensures r.Failure? ==> r.error.Shape?
    ensures r.Success? ==> r.value.discrete == BoolV(true) && r.value.lossFn == cfg.lossFn && r.value.step == cfg.step
  {
    var actionPreds :- Filter(input.actionPreds, input.mask);
    var targets :- FilterFlat(IndexScalars(input.actionTargets), input.mask);
    var statePreds :- Filter(input.statePreds, PredMask(input.mask));
    var stateTargets :- FilterWide(input.stateTargets, input.stateDim, TargetMask(input.mask));
    var dones :- Filter(input.dones, input.mask);
    var stateArgs := if cfg.stateIl then [TensorV(Rows(statePreds)), TensorV(Rows(stateTargets))] else [NoneV, NoneV];
    var pos := [TensorV(Rows(actionPreds)), TensorV(Labels(targets))] + stateArgs + [BoolV(cfg.discrete)];
    BindFive(pos, cfg);
    BindParams(pos, cfg)
  }

  /** Five positional arguments fill the first five parameters; the rest
      keep their defaults. */
  lemma BindFive(pos: seq<Value>, cfg: StepConfig)
    requires |pos| == 5
    ensures BindParams(pos, cfg) == Success(Params(pos[0], pos[1], pos[2], pos[3], pos[4], NoneV, NoneV, BoolV(true), cfg.lossFn, cfg.step))
  {
    var p := BindImitation(pos, cfg.lossFn, cfg.step).value;
    assert Slot(p, 2) == pos[2] && Slot(p, 3) == pos[3] && Slot(p, 4) == pos[4];
    assert Slot(p, 5) == Default(5) && Slot(p, 6) == Default(6) && Slot(p, 7) == Default(7);
    assert Slot(p, 0) == pos[0] && Slot(p, 1) == pos[1];
  }

  /** Validation-side argument values: action predictions, class-index
      targets and (with `state_il`) the shifted-mask state tensors are
      filtered like their training counterparts; the fifth positional
      argument, the `discrete` flag, becomes `q_preds`, and next-Q, dones
      and `discrete` keep their defaults. */
  lemma ValidationParamsValues(cfg: StepConfig, input: StepInput)
    requires ValidationParams(cfg, input).Success?
    ensures |Flatten(input.actionPreds)| == |Flatten(input.mask)| && |IndexScalars(input.actionTargets)| == |Flatten(input.mask)|
    ensures |Flatten(input.statePreds)| == |Flatten(PredMask(input.mask))|
      && StateTargetRows(input).Success? && |StateTargetRows(input).value| == |Flatten(TargetMask(input.mask))|
      && |Flatten(input.dones)| == |Flatten(input.mask)|
    ensures var p, m := ValidationParams(cfg, input).value, Flatten(input.mask);
      && p.actionPreds == TensorV(Rows(Select(Flatten(input.actionPreds), m)))
      && p.actionTargets == TensorV(Labels(Select(IndexScalars(input.actionTargets), m)))
      && p.qPreds == BoolV(cfg.discrete) && p.nextQ == NoneV && p.dones == NoneV && p.discrete == BoolV(true)
      && p.lossFn == cfg.lossFn && p.step == cfg.step
    ensures var p := ValidationParams(cfg, input).value;
      && (cfg.stateIl ==>
            p.statePreds == TensorV(Rows(Select(Flatten(input.statePreds), Flatten(PredMask(input.mask)))))
            && p.stateTargets == TensorV(Rows(Select(StateTargetRows(input).value, Flatten(TargetMask(input.mask))))))
      && (!cfg.stateIl ==> p.statePreds == NoneV && p.stateTargets == NoneV)
  {
    var ap := Filter(input.actionPreds, input.mask);
    var tg := FilterFlat(IndexScalars(input.actionTargets), input.mask);
    var sp := Filter(input.statePreds, PredMask(input.mask));
    var st := FilterWide(input.stateTargets, input.stateDim, TargetMask(input.mask));
    var dn := Filter(input.dones, input.mask);
    assert ap.Success? && tg.Success? && sp.Success? && st.Success? && dn.Success?;
    var stateArgs := if cfg.stateIl then [TensorV(Rows(sp.value)), TensorV(Rows(st.value))] else [NoneV, NoneV];
    var pos := [TensorV(Rows(ap.value)), TensorV(Labels(tg.value))] + stateArgs + [BoolV(cfg.discrete)];
    BindFive(pos, cfg);
    assert ValidationParams(cfg, input) == BindParams(pos, cfg);
  }

  /** The positional `discrete` of the validation call lands in `q_preds`,
      so `q_preds is not None` always holds there: the critic runs whenever
      the model has one, receiving the flag as its Q values and `None` for
      next-Q and dones; otherwise the loss is cross-entropy even for a
      continuous action space, because `discrete` keeps its default `True`. */
  lemma ValidationCriticQuirk(cfg: StepConfig, input: StepInput)
    requires ValidationParams(cfg, input).Success?
    ensures var p := ValidationParams(cfg, input).value;
      && p.qPreds == BoolV(cfg.discrete) && p.discrete == BoolV(true)
      && p.nextQ == NoneV && p.dones == NoneV
      && ImitationLoss(p).Success?
      && (ImitationLoss(p).value.0.CriticLoss? <==> cfg.lossFn.Some?)
      && (cfg.lossFn.None? ==> ImitationLoss(p).value.0.CrossEntropy?)
      && (ImitationLoss(p).value.0.CriticLoss? ==> ImitationLoss(p).value.0.q == BoolV(cfg.discrete))
      && (ImitationLoss(p).value.1.StateMse? <==> cfg.stateIl)
  {
    ValidationParamsValues(cfg, input);
  }

  /** The loss of one validation batch: the action, state and two
      reconstruction losses, with no option or commitment loss. The
      reconstruction outputs are unpacked before any masking. */
  function ValidationStepLoss(cfg: StepConfig, input: StepInput, out: Envelope, num: Numerics): (r: Result<real, StepError>)
    ensures r.Success? <==> Unpacks(out) && ValidationParams(cfg, input).Success?
    ensures !Unpacks(out) ==> r == Failure(RcUnpackNone)
    ensures Unpacks(out) && r.Failure? ==> r.error == ValidationParams(cfg, input).error
    ensures r.Success? ==>
      var il := ImitationLoss(ValidationParams(cfg, input).value).value;
      r.value == ActValue(il.0, num) + StateValue(il.1, num)
        + RcValue(ReconstructionLoss(out.stateRc.value.0, out.stateRc.value.1), num)
        + RcValue(ReconstructionLoss(out.langRc.value.0, out.langRc.value.1), num)
  {
    var _ :- if !Unpacks(out) then Failure(RcUnpackNone) else Success(());
    var p :- ValidationParams(cfg, input);
    match ImitationLoss(p)
    case Success(il) => Success(ValidationTotal(TrainTerms(il, out, num)))
    case Failure(_) => assert false; Failure(NextQShapeMismatch)
  }

  /** Validation neither reads the option loss nor the commitment loss:
      changing them leaves the validation loss, or its error, as it was. */
  lemma ValidationIgnoresOptionAndCommitment(cfg: StepConfig, input: StepInput, out: Envelope, num: Numerics,
                                             options: Option<Tensor>, commitment: Option<Tensor>)
    ensures ValidationStepLoss(cfg, input, out.(optionsLoss := options, commitment := commitment), num)
      == ValidationStepLoss(cfg, input, out, num)
  {
  }

  /** As written, the validation fallback pads states, actions, timesteps and
      the mask for the option methods but not `dones`: for any non-empty
      batch the `dones` filter then meets a longer mask and fails, even when
      every other field is padded correctly. */
  lemma ValidationUnpaddedDonesFail(cfg: StepConfig, input: StepInput, l: nat, k: nat)
    requires k > 0
    requires |input.mask| >= 1
    requires forall i :: 0 <= i < |input.mask| ==> |input.mask[i]| == PaddedLength(l, k)
    requires RowsAgree(input.actionPreds, input.mask)
    requires |IndexScalars(input.actionTargets)| == |Flatten(input.mask)|
    requires RowsAgree(input.statePreds, PredMask(input.mask))
    requires RowsAgree(input.stateTargets, TargetMask(input.mask))
    requires input.stateDim > 0 && VectorsOfLength(input.stateTargets, input.stateDim)
    requires |input.dones| == |input.mask| && forall i :: 0 <= i < |input.dones| ==> |input.dones[i]| == l
    ensures var b, n := |input.mask|, PaddedLength(l, k);
      ValidationParams(cfg, input) == Failure(Shape(ShapeMismatch(b * l, b * n)))
  {
    var b, n := |input.mask|, PaddedLength(l, k);
    assert |Flatten(input.dones)| == b * l by {
      FlattenRectangular(input.dones, l);
    }
    assert |Flatten(input.mask)| == b * n by {
      FlattenRectangular(input.mask, n);
    }
    assert b * l < b * n by {
      assert b * n - b * l == b * (n - l);
      MulAtLeast(b, n - l);
    }
    assert Filter(input.dones, input.mask) == Failure(Shape(ShapeMismatch(b * l, b * n)));
    ValidationFiltersBeforeDones(input);
  }

  /** The four filters that precede the `dones` filter succeed on agreeing
      shapes, with state targets `state_dim` wide. */
  lemma ValidationFiltersBeforeDones(input: StepInput)
    requires RowsAgree(input.actionPreds, input.mask)
    requires |IndexScalars(input.actionTargets)| == |Flatten(input.mask)|
    requires RowsAgree(input.statePreds, PredMask(input.mask))
    requires RowsAgree(input.stateTargets, TargetMask(input.mask))
    requires input.stateDim > 0 && VectorsOfLength(input.stateTargets, input.stateDim)
    ensures Filter(input.actionPreds, input.mask).Success?
    ensures FilterFlat(IndexScalars(input.actionTargets), input.mask).Success?
    ensures Filter(input.statePreds, PredMask(input.mask)).Success?
    ensures FilterWide(input.stateTargets, input.stateDim, TargetMask(input.mask)).Success?
  {
    FlattenRowsAgree(input.actionPreds, input.mask);
    FlattenRowsAgree(input.statePreds, PredMask(input.mask));
    FlattenRowsAgree(input.stateTargets, TargetMask(input.mask));
    FilterWideOfWidth(input.stateTargets, input.stateDim, TargetMask(input.mask));
  }

  /** Train a whole epoch: one loss per batch, in loader order; the first
      batch that fails aborts the iteration. */
  function IterationLosses(cfg: StepConfig, batches: seq<(StepInput, Envelope)>, num: Numerics, policy: Policy): (r: Result<seq<real>, StepError>)
    ensures r.Success? ==> |r.value| == |batches|
    ensures r.Success? ==> forall i :: 0 <= i < |batches| ==>
      TrainStepLoss(cfg, batches[i].0, batches[i].1, num, policy) == Success(r.value[i])
    ensures r.Failure? <==> exists i :: 0 <= i < |batches| && TrainStepLoss(cfg, batches[i].0, batches[i].1, num, policy).Failure?
  {
    MapUntilFailure((b: (StepInput, Envelope)) => TrainStepLoss(cfg, b.0, b.1, num, policy), batches)
  }

  datatype ScheduleError = ZeroEvalEvery

  /** `iter_num % self.eval_every == 0`: whether an evaluation pass follows
      the iteration (Python raises on a zero modulus). */
  function EvaluatesAfter(iterNum: int, evalEvery: int): (r: Result<bool, ScheduleError>)
    ensures evalEvery == 0 <==> r.Failure?
  {
    if evalEvery == 0 then Failure(ZeroEvalEvery) else Success(iterNum % evalEvery == 0)
  }

  /** With a positive `eval_every`, evaluation follows exactly the
      iterations that are multiples of it. */
  lemma EvaluatesExactlyOnMultiples(iterNum: int, evalEvery: int)
    requires evalEvery > 0
    ensures EvaluatesAfter(iterNum, evalEvery).Success?
    ensures EvaluatesAfter(iterNum, evalEvery).value <==> iterNum == (iterNum / evalEvery) * evalEvery
    ensures EvaluatesAfter(iterNum * evalEvery, evalEvery) == Success(true)
  {
    DivModUnique(iterNum * evalEvery, evalEvery, iterNum, 0);
  }
}
